=== FILE: README.md ===
# Word-spotting microphone and verbal-command examples, modelled in Dafny

This project models the core of a Unity word-detection package. The package has four parts:

- `SpectrumMicrophone`: the component that owns the microphone capture buffers and conditions the signal.
- `SpectrumMicrophoneInspector`: the editor panel that normalizes the capture parameters.
- `Example16` and `Example10`: two verbal-command scenes. They enroll word profiles, save them to disk and react to recognized words.

The FFT, the word-recognition engine and Unity itself are outside the model. They appear only as parameters or as reported effects.

Modules, one per component:

- `Wrappers`: `Option`, standing in for C#'s null.
- `Clock`: `DateTime` as an abstract millisecond clock. `MinValue` is the "timer disarmed" sentinel. `Poll` models the one-shot timers both examples use.
- `SignalConditioning`: the three sample-processing routines of `SpectrumMicrophone`. They are `RemoveWaveNoise`, `RemoveSpectrumNoise` and `NormalizeWave`, modelled on sequences of reals.
- `SpectrumMicrophone`: the component's buffers and device state as a record. It covers `InitData`, `CleanUp`, `ClearData`, `GetData`, `GetPosition`, `Update` and the scratch-buffer check of `GetSpectrumData`. C# `int` arithmetic wraps at 32 bits (`Wrap32`).
- `SpectrumMicrophoneInspector`: rounding each parameter down to a power of two, clamping it, and reallocating the buffers while playing.
- `ProfileStore`: the profile file of a word. The file is `Assets/<TypeName>_<label>.profile`, and the file system is a map from path to record.
- `Enrollment`: the press-and-hold recording state machine that both examples' `OnGUI` share. The step for one row reports its side effects as a list. The effects are `SetupWordProfile(released)`, `ClearMicData` and `SaveProfile(path)`.
- `Example16` and `Example10`: vocabulary construction in `Start`, the word-detected handler, `Update`, and `OnGUI`.

`InitData` does not reset the position tracker `m_lastPosition` (SpectrumMicrophone.cs:34-43 never assigns it), and the model keeps it unchanged there.

## Model

| member | source | states |
|---|---|---|
| Clock.Poll | Assets/WordDetection/Scripts/Example10.cs:333-340 | The timer fires exactly when it is armed and its deadline has passed. Firing disarms it; otherwise it is unchanged. |
| Clock.PollFiresOncePerArming | Assets/WordDetection/Scripts/Example16.cs:431-438 | After the timer fires, no later poll fires again until it is re-armed. |
| SignalConditioning.RemoveSpectrumNoise | Assets/WordDetection/Scripts/SpectrumMicrophone.cs:197-223 | A missing noise profile, a missing spectrum or a length mismatch leaves the spectrum alone. Otherwise every bin becomes max(0, \|s\| - \|n\|), so the result has the same length and is non-negative. |
| SignalConditioning.ZeroNoiseIsIdentity | Assets/WordDetection/Scripts/SpectrumMicrophone.cs:209-221 | Subtracting an all-zero noise profile leaves a non-negative spectrum unchanged. |
| SignalConditioning.ZeroNoiseGivesMagnitude | Assets/WordDetection/Scripts/SpectrumMicrophone.cs:209-221 | Subtracting an all-zero noise profile maps each bin to its magnitude and keeps the length. |
| SignalConditioning.SubtractionComposes | Assets/WordDetection/Scripts/SpectrumMicrophone.cs:209-221 | Removing noise n1 and then n2 equals one removal of their summed magnitudes. |
| SignalConditioning.SignBranchesAreDead | Assets/WordDetection/Scripts/SpectrumMicrophone.cs:160-185 | Both operands are made absolute before the sign tests, so every sample ends up as the non-negative floor subtraction and the negative branches never run. |
| SignalConditioning.RemoveWaveNoise | Assets/WordDetection/Scripts/SpectrumMicrophone.cs:152-190 | As written: a null noise profile or a length mismatch leaves the wave alone. Otherwise each sample becomes max(0, \|s\| - \|n\|), so the result is non-negative and the wave's sign is lost. |
| SignalConditioning.RemoveWaveNoiseSigned | Assets/WordDetection/Scripts/SpectrumMicrophone.cs:152-190 | The corrected removal keeps the same guard. Each sample keeps its sign, and its magnitude is the clamped magnitude difference. |
| SignalConditioning.SignedAgreesInMagnitude | Assets/WordDetection/Scripts/SpectrumMicrophone.cs:158-187 | The corrected and the written removal agree on every sample's magnitude. |
| SignalConditioning.WaveNoiseLosesSign | Assets/WordDetection/Scripts/SpectrumMicrophone.cs:160-187 | For the sample -0.5 with noise 0.1, the written code gives 0.4 where the corrected one gives -0.4. |
| SignalConditioning.PosPeakIsMaximum | Assets/WordDetection/Scripts/SpectrumMicrophone.cs:237-258 | The first loop's `max` is at least every positive sample. When it is non-zero, some sample equals it. |
| SignalConditioning.NegPeakIsMaximum | Assets/WordDetection/Scripts/SpectrumMicrophone.cs:237-258 | The first loop's `min` is the largest magnitude of a non-positive sample, and one such sample reaches it. |
| SignalConditioning.NormalizeWave | Assets/WordDetection/Scripts/SpectrumMicrophone.cs:229-280 | As written: null stays null and the length is kept. Positive samples land in (0, 1], and the positive peak maps to exactly 1. Non-positive samples are divided by the positive peak. Without a positive sample nothing changes. |
| SignalConditioning.NormalizeWaveSymmetric | Assets/WordDetection/Scripts/SpectrumMicrophone.cs:260-279 | The corrected normalization keeps every sample in [-1, 1]. Positive samples stay positive, negative ones negative, and zero stays zero. A positive sample is divided by the positive peak and a negative one by the magnitude of the negative peak, so each lobe's peak maps to exactly 1 or -1. |
| SignalConditioning.NegativeLobeLeavesUnitRange | Assets/WordDetection/Scripts/SpectrumMicrophone.cs:270-276 | For the wave [0.5, -1.0], the written code turns -1.0 into -2.0, while the corrected one gives -1.0. |
| SpectrumMicrophone.CleanUp | Assets/WordDetection/Scripts/SpectrumMicrophone.cs:65-78 | Afterwards there is no clip. A named recording device is stopped, and an unnamed one is left alone. Nothing else changes. |
| SpectrumMicrophone.CleanUpIdempotent | Assets/WordDetection/Scripts/SpectrumMicrophone.cs:65-78 | Cleaning up twice is the same as cleaning up once. |
| SpectrumMicrophone.InitData | Assets/WordDetection/Scripts/SpectrumMicrophone.cs:34-43 | Allocation succeeds exactly when the 32-bit product SampleRate*CaptureTime is non-negative. On success the fetch and scratch buffers have that many zeros, and both spectrum buffers have half as many. Everything else is the cleaned-up state, and the position tracker is not reset. |
| SpectrumMicrophone.NormalizedParametersAllocate | Assets/WordDetection/Scripts/SpectrumMicrophone.cs:13-43 | For parameters the inspector allows, the product does not wrap. The buffer size is a power of two in [1024, 2^20], it halves exactly, and allocation succeeds. |
| SpectrumMicrophone.ClearData | Assets/WordDetection/Scripts/SpectrumMicrophone.cs:85-96 | With a clip and a recording device, the fetch buffer is zeroed at its length. Otherwise nothing changes, and nothing but the fetch buffer ever changes. |
| SpectrumMicrophone.GetPosition | Assets/WordDetection/Scripts/SpectrumMicrophone.cs:135-145 | This is the device position while recording and 0 otherwise. |
| SpectrumMicrophone.GetData | Assets/WordDetection/Scripts/SpectrumMicrophone.cs:98-116 | Without a clip or a recording device nothing changes. While recording, the position is remembered, and the clip is copied only when the position moved. The returned array is the fetch buffer. |
| SpectrumMicrophone.GetDataCopiesOnlyOnAdvance | Assets/WordDetection/Scripts/SpectrumMicrophone.cs:104-115 | Two polls at the same position return the first copy. A moved position copies again. |
| SpectrumMicrophone.Update | Assets/WordDetection/Scripts/SpectrumMicrophone.cs:330-369 | The device is started only when all of these hold: there is a device name, there is no clip, access is permitted, and the start succeeds. Otherwise nothing changes. |
| SpectrumMicrophone.UpdateIdempotentOnceStarted | Assets/WordDetection/Scripts/SpectrumMicrophone.cs:360-363 | Once a clip exists, further updates never start the device again. |
| SpectrumMicrophone.ResizeScratch | Assets/WordDetection/Scripts/SpectrumMicrophone.cs:292-307 | Null samples leave the scratch buffer alone. Otherwise it has the samples' length, and it is reallocated with zeros only when it is missing or the wrong length. |
| SpectrumMicrophone.ResizeScratchSteadyState | Assets/WordDetection/Scripts/SpectrumMicrophone.cs:299-304 | A second call with the same samples reallocates nothing. |
| Enrollment.ApplyToMic | Assets/WordDetection/Scripts/SpectrumMicrophone.cs:85-96 | Reported effects touch only the fetch buffer. Without a `ClearMicData` effect nothing changes, and with one the buffer of a recording clip is zeroed. |
| SpectrumMicrophoneInspector.FloorLog2 | Assets/WordDetection/Editor/SpectrumMicrophoneInspector.cs:25 | For x >= 1 this is the exponent k with 2^k <= x < 2^(k+1). |
| SpectrumMicrophoneInspector.RoundDownPow2 | Assets/WordDetection/Editor/SpectrumMicrophoneInspector.cs:25-26 | For x >= 1 this is the power of two r with r <= x < 2r; below 1 it is 0. |
| SpectrumMicrophoneInspector.RoundDownFixesPowers | Assets/WordDetection/Editor/SpectrumMicrophoneInspector.cs:25-26 | A power of two rounds to itself. |
| SpectrumMicrophoneInspector.Normalize | Assets/WordDetection/Editor/SpectrumMicrophoneInspector.cs:25-28 | The result is a power of two within the bounds. In range it is the largest power of two not above the input, and out of range it is the nearest bound. It equals the input exactly when the input is already an in-range power of two. |
| SpectrumMicrophoneInspector.NormalizeIdempotent | Assets/WordDetection/Editor/SpectrumMicrophoneInspector.cs:25-28 | Normalizing twice equals normalizing once. |
| SpectrumMicrophoneInspector.NormalizeCaptureTime | Assets/WordDetection/Editor/SpectrumMicrophoneInspector.cs:23-28 | The capture time becomes a power of two of seconds in [1, 16]. |
| SpectrumMicrophoneInspector.NormalizeSampleRate | Assets/WordDetection/Editor/SpectrumMicrophoneInspector.cs:33-38 | The sample rate becomes a power of two in [1024, 65536]. |
| SpectrumMicrophoneInspector.NormalizationClamps | Assets/WordDetection/Editor/SpectrumMicrophoneInspector.cs:27-28 | Out-of-range inputs land on the bounds: 100 s gives 16, 0 gives 1, 512 Hz gives 1024, and 100000 Hz gives 65536. |
| SpectrumMicrophoneInspector.NormalizationRoundsDown | Assets/WordDetection/Editor/SpectrumMicrophoneInspector.cs:25-26 | In-range inputs round down: 5 s gives 4 and 44100 Hz gives 32768. |
| SpectrumMicrophoneInspector.OnInspectorGUI | Assets/WordDetection/Editor/SpectrumMicrophoneInspector.cs:14-50 | The normalized parameters are stored. If either changed while playing, the result is `CleanUp` of the edited component (a named recording device is stopped, the clip dropped, every other field kept) with all four buffers reallocated and zeroed: the fetch and complex buffers at the new size, the two spectrum buffers at half of it. Otherwise only the two fields change. |
| ProfileStore.ProfilePath | Assets/WordDetection/Scripts/Example10.cs:66 | The profile path is `Assets/`, the type name, `_`, the label and `.profile`. |
| ProfileStore.ProfilePathInjective | Assets/WordDetection/Scripts/Example10.cs:128 | Within one example, distinct labels never share a profile file. |
| ProfileStore.LoadWord | Assets/WordDetection/Scripts/Example10.cs:63-90 | The word keeps its label. A missing or unreadable file leaves it untrained, and an intact file supplies the spectrum it holds. |
| ProfileStore.SaveWord | Assets/WordDetection/Scripts/Example10.cs:125-151 | A successful write stores the word's spectrum under its own key, adds only that key, and leaves every other file unchanged. A write that fails is modelled as leaving the store unchanged (see Left out). |
| ProfileStore.SaveLoadRoundTrip | Assets/WordDetection/Scripts/Example16.cs:119-146 | Loading a word just saved gives it back unchanged. |
| ProfileStore.SaveIsolated | Assets/WordDetection/Scripts/Example10.cs:128-140 | Saving one word never changes what another label loads. |
| ProfileStore.BuildVocabulary | Assets/WordDetection/Scripts/Example16.cs:113-147 | There is one word per label, in order, each loaded from its own file. |
| Enrollment.ButtonStep | Assets/WordDetection/Scripts/Example16.cs:325-374 | Rows not involved are untouched, at most one row is claimed, and the invariant is kept. An idle press starts a recording. The recording holds while its deadline is ahead. It times out when the deadline passes, and the timeout wins over a release and saves nothing. A release before the deadline saves under the row's label. Exactly at the deadline, with the button still down, nothing changes. |
| Enrollment.InitialValid | Assets/WordDetection/Scripts/Example16.cs:331-341 | The starting session (no row claimed, timer disarmed, not recording) is idle and satisfies the invariant, so the first press can start a recording. |
| Enrollment.PassFrom | Assets/WordDetection/Scripts/Example16.cs:252-385 | The loop over the rows keeps the session invariant. |
| Enrollment.Pass | Assets/WordDetection/Scripts/Example16.cs:214-275 | Without a device name or a noise word, the pass does nothing. Otherwise it keeps the session invariant. |
| Enrollment.PassQuietWhenIdle | Assets/WordDetection/Scripts/Example16.cs:331-341 | When no button is pressed, an idle pass changes nothing and reports nothing. |
| Enrollment.PassHolds | Assets/WordDetection/Scripts/Example16.cs:345-350 | While the deadline is ahead and the button is held, a pass changes nothing. |
| Enrollment.PassFinalizes | Assets/WordDetection/Scripts/Example16.cs:342-372 | The recording row finalizes, and the rows before and after it are quiet. |
| Enrollment.PassTimesOut | Assets/WordDetection/Scripts/Example16.cs:351-360 | Past the deadline, and unless the mouse is held over a later row (which would start a new recording in the same pass), a whole pass resets the session. It builds the profile from the full window, clears the mic and saves nothing. |
| Enrollment.PassReleases | Assets/WordDetection/Scripts/Example16.cs:361-372 | A release before the deadline, unless the mouse is held over a later row (which would start a new recording in the same pass), resets the session. It builds the profile, clears the mic and saves under the recorded row's label. |
| Enrollment.FinalizingPassClearsMic | Assets/WordDetection/Scripts/Example16.cs:351-372 | A pass that times out or is released resets the session, and applying its effects to a recording mic zeroes the fetch buffer (`ClearData`) and changes nothing else. |
| Enrollment.PassStarts | Assets/WordDetection/Scripts/Example16.cs:331-341 | From idle, holding over a row starts recording it. The mic position is remembered, and the deadline is CaptureTime seconds ahead. |
| Enrollment.SavesUseVocabularyKeys | Assets/WordDetection/Scripts/Example16.cs:361-371 | Every file a pass saves is the profile key of one of the vocabulary's labels. |
| Example16.Parse | Assets/WordDetection/Scripts/Example16.cs:180 | Parsing succeeds exactly on the enum's member names and returns the member of that name. |
| Example16.ParseName | Assets/WordDetection/Scripts/Example16.cs:180 | Every command parses back from its own name. |
| Example16.Start | Assets/WordDetection/Scripts/Example16.cs:90-151 | Without a video stage there are no words. Otherwise there are six words in enum order, starting with Noise, each loaded from its own profile file, and a missing file leaves a word untrained. |
| Example16.EnrolledWordReloads | Assets/WordDetection/Scripts/Example16.cs:113-147 | A word saved under its command name is what the next `Start` loads into its slot. |
| Example16.WordDetectedHandler | Assets/WordDetection/Scripts/Example16.cs:165-181 | While recording, the event is ignored. A null or empty label selects Noise, and a command's name selects that command. An unknown label changes nothing, because the parse throws. The timer is never touched. |
| Example16.Update | Assets/WordDetection/Scripts/Example16.cs:390-439 | While recording or without a stage nothing changes. Otherwise an expired clear-mic timer is disarmed and clears the mic data. |
| Example16.ClearMicTimerStaysDisarmed | Assets/WordDetection/Scripts/Example16.cs:28 | Nothing in the class arms the clear-mic timer, so the mic data is never cleared by it. |
| Example16.InitialNeverClearsMic | Assets/WordDetection/Scripts/Example16.cs:28 | From the initial state, whatever is detected first, an update never clears the mic data. |
| Example16.OnGUI | Assets/WordDetection/Scripts/Example16.cs:214-388 | The pass keeps the session invariant and leaves the command and the timer alone. Every saved path is a vocabulary key. |
| Example10.Start | Assets/WordDetection/Scripts/Example10.cs:35-95 | The vocabulary is the untrained Noise word, followed by one word per expression name, in order, each loaded from its own profile file. A missing file leaves a word untrained. |
| Example10.EnrolledExpressionReloads | Assets/WordDetection/Scripts/Example10.cs:56-91 | A word saved under an expression's name is what the next `Start` loads into that row. |
| Example10.NoiseProfileNotReloaded | Assets/WordDetection/Scripts/Example10.cs:52-53 | The noise profile can be saved and read back, but `Start` never loads it. |
| Example10.WordDetectedHandler | Assets/WordDetection/Scripts/Example10.cs:102-123 | While recording, the event is ignored. A null or empty label selects Noise. Any other label becomes the command, and only a non-Noise label arms the clear timer 200 ms ahead. |
| Example10.SelectExpressions | Assets/WordDetection/Scripts/Example10.cs:317-330 | Renderer i is enabled exactly when its name is the command. `found` holds exactly when some name is the command. |
| Example10.Update | Assets/WordDetection/Scripts/Example10.cs:309-341 | While recording nothing changes. Otherwise exactly the expressions named by the command are shown, and the noise renderer is shown exactly when none is named. An expired timer is disarmed and clears the mic. |
| Example10.DetectionSelectsExpression | Assets/WordDetection/Scripts/Example10.cs:317-331 | After a label is heard, the next update shows the expressions with that name, and the noise renderer exactly when there is none. |
| Example10.DetectionClearsMicOnce | Assets/WordDetection/Scripts/Example10.cs:333-340 | A non-Noise detection clears the mic once, on the first update past its deadline. Earlier updates leave the mic alone, and so do later ones. |
| Example10.OnGUI | Assets/WordDetection/Scripts/Example10.cs:156-307 | The pass keeps the session invariant and leaves the command and the timer alone. Every saved path is a vocabulary key. |
| Example10.InitialShowsNoise | Assets/WordDetection/Scripts/Example10.cs:15-17 | Initially the command is "Noise" and the timer is disarmed. The first update shows the noise renderer unless an expression is itself named "Noise", and it leaves the mic data alone. |
| Example10.RecordingSuspendsRecognition | Assets/WordDetection/Scripts/Example10.cs:309-315 | While recording, detections and updates change nothing. |

## Left out

- The FFT (`FourierTransform.FFT`), `GetSpectrumData(fftWindow, …)` and its `SpectrumChanged` event: they are foreign computations on floats. Only the scratch-buffer check of `GetSpectrumData(samples, …)` is modelled.
- `GetFrequency`, `GetLastData` and `GetLastSpectrumData`: they return a clip property or a buffer unchanged.
- `OnEnable` and `OnApplicationQuit`: they only call `InitData` and `CleanUp`, which are modelled.
- Floating point: samples are exact reals, with no NaN, infinity or rounding.
- SignalConditioning.NormalizeWave: requires that a wave with a negative lobe also has a positive sample. For such input the source divides floats by zero and produces infinities or NaN, which reals cannot express.
- SignalConditioning.RemoveWaveNoise: a null `sample` with a non-null noise profile throws in the source; the model's sample is never null.
- `(int)Mathf.Log(x, 2)` is modelled as the exact floor of log2. For x <= 0 the cast is taken to give a large negative exponent, so the power is 0 and the lower bound wins. Float rounding is not modelled. In particular, any typed value of at least 2147483584 becomes the float 2^31, so the log is 31. `(int)Mathf.Pow(2, 31)` then overflows, to `int.MinValue` on x86, and the source clamps to the lower bound (1 or 1024). The model rounds down to 2^30 and clamps to the upper bound (16 or 65536). Values just below other large powers of two can likewise round up to that power.
- The inspector's slider and integer field: the typed values are parameters.
- The microphone, the `AudioSource` and the `AudioClip` are reduced to flags, a position and the samples `AudioClip.GetData` would return. `ClearData` also writes the zeroed buffer back into the clip; the clip's contents are not modelled.
- SpectrumMicrophone.Update: the web-player authorization request is a single `permitted` flag, and an exception from `Microphone.Start` is a `StartFailed` outcome.
- Web-player builds: `#if !UNITY_WEBPLAYER` removes every profile load and save (Example10.cs:63-90 and 127-150, Example16.cs:119-146 and 185-208). Such a build is the empty store with every save `written == false`.
- ProfileStore.SaveWord: a failed save is modelled as leaving the store unchanged. In the source, `File.Open(path, FileMode.OpenOrCreate, …)` runs before `AudioWordDetection.SaveWord` (Example10.cs:134, Example16.cs:192), so a throw during the write can leave a newly created empty file or a partly overwritten one behind.
- ProfileStore.SaveWord: `FileMode.OpenOrCreate` does not truncate, so a shorter record written over a longer file leaves stale trailing bytes. The model replaces the record whole, and `SaveLoadRoundTrip` relies on the loader ignoring any trailing bytes.
- Buffers are modelled as values. `GetData` returns `m_fetchData` by reference, and callers' in-place conditioning (`RemoveWaveNoise`, `NormalizeWave`) and `ClearData` write to that same array. So in the source, a poll at an unmoved position returns the already-conditioned buffer. This caller-visible aliasing is not modelled.
- `DateTime.Now` is read once per `OnGUI` call (`Frame.now`). The source reads it separately for the deadline, the hold test and the timeout test of every row, so instants between those reads are not modelled.
- The recognition engine (`AudioWordDetection`): scoring, `ClosestIndex`, `SetupWordProfile`, and the binary format of `LoadWord`/`SaveWord`. Profile building is a reported effect, and a file holds the saved spectrum or is unreadable.
- The base class `Example4` is not part of this model. Its fields `m_buttonIndex`, `m_timerStart` and `m_startPosition` are taken to start at -1, `DateTime.MinValue` and 0. `GetWord(WORD_NOISE)` is taken as a flag saying whether the noise word exists.
- GUI layout, colours, the Play buttons, editing a row's label, and `GUI.enabled`. Disabling the GUI does not affect the recording logic, which reads the mouse directly. Edited labels appear as the vocabulary handed to `OnGUI`.
- `m_wordsChanged` is never set to true in either example, so `GUIUtility.ExitGUI` never runs.
- Null `AudioWordDetection` or `Mic` references in `Start` and `OnGUI`: the model has no null components.
- Example16: the webcam chooser, the video materials, movie playback, the goat audio and its timer `m_timerGoat`.
- Example16.Parse: `Enum.Parse` also accepts numeric strings, comma-separated lists and surrounding whitespace. Only exact member names are modelled.
- Example10: duplicating the renderers, and the renderer objects themselves. A renderer is its name, and a `Display` holds the enabled flags.
- Threads: the detection event and the Unity callbacks are modelled as separate, non-overlapping calls.

## Findings

| source | as written | input that shows it | evidently intended | confidence | as-written member | corrected member |
|---|---|---|---|---|---|---|
| Assets/WordDetection/Scripts/SpectrumMicrophone.cs:270-276 | Non-positive samples are divided by `max`, the positive peak, when `min` is non-zero. | The wave [0.5, -1.0] becomes [1.0, -2.0]. | Divide by `min`, so both lobes land in [-1, 1]: [1.0, -1.0]. | high; not executed | SignalConditioning.NormalizeWave | SignalConditioning.NormalizeWaveSymmetric |
| Assets/WordDetection/Scripts/SpectrumMicrophone.cs:160-185 | Both values are made absolute before the `< 0` tests, so only the last branch runs and every sample becomes non-negative. | The sample -0.5 with noise 0.1 becomes 0.4. | Move the sample toward zero by the noise magnitude and keep its sign: -0.4. | medium; not executed | SignalConditioning.RemoveWaveNoise | SignalConditioning.RemoveWaveNoiseSigned |

=== FILE: clock.dfy ===
/**
 * `System.DateTime` as the examples use it: readings of an abstract clock in
 * milliseconds, plus the sentinel `DateTime.MinValue`, which the examples store
 * in a timer field to mean "not armed" and which precedes every reading.
 */
module Clock {

  datatype Stamp = MinValue | At(ms: int)

  const MillisPerSecond: int := 1000

  /** `t > DateTime.Now`: the sentinel is never later than a reading. */
  predicate After(t: Stamp, now: int)
  {
    t.At? && t.ms > now
  }

  /** `t < DateTime.Now`: the sentinel is earlier than every reading. */
  predicate Before(t: Stamp, now: int)
  {
    t.MinValue? || t.ms < now
  }

  /**
   * One poll of a one-shot timer, as the `m_timerClearMic` blocks of both
   * examples' `Update` do it: an armed timer whose deadline has passed is
   * disarmed and reports that it fired.
   */
  function Poll(t: Stamp, now: int): (r: (Stamp, bool))
    ensures r.1 <==> t.At? && t.ms < now
    ensures r.1 ==> r.0 == MinValue
    ensures !r.1 ==> r.0 == t
  {
    if t != MinValue && Before(t, now) then (MinValue, true) else (t, false)
  }

  /** Once a timer has fired it stays disarmed: a later poll, at any time, does not fire again. */
  lemma PollFiresOncePerArming(t: Stamp, now: int, later: int)
    requires Poll(t, now).1
    ensures Poll(Poll(t, now).0, later) == (MinValue, false)
  {
  }
}

=== FILE: enrollment.dfy ===
/**
 * The enrollment state machine that `Example16.OnGUI` and `Example10.OnGUI`
 * share, line for line. For every row of the word list the GUI checks whether
 * a recording may start on that row's button and, for the row being recorded,
 * whether the recording is still held, has timed out, or was released.
 *
 * The state is the base class's `m_buttonIndex`, `m_timerStart` and
 * `m_startPosition` plus the example's own `m_recordingSample`. What
 * `SetupWordProfile`, `ClearData` and `SaveProfile` do is not computed here:
 * a step reports them, in order, as effects.
 */
module Enrollment {
  import opened Clock
  import opened SignalConditioning
  import opened SpectrumMicrophone
  import opened ProfileStore

  datatype Session = Session(buttonIndex: int, timerStart: Stamp, startPosition: int, recording: bool)

  /** No button pressed, no timer, not recording. */
  const Initial: Session := Session(-1, MinValue, 0, false)

  /** The initial session is idle and satisfies the invariant for any number of rows. */
  lemma InitialValid(n: nat)
    ensures Valid(Initial, n) && Idle(Initial) && !Initial.recording
  {
  }

  /**
   * What one `OnGUI` call sees: `Input.GetMouseButton(0)`,
   * `Input.GetMouseButtonUp(0)`, the row whose button is under the mouse
   * (the rows do not overlap; -1 for none) and `DateTime.Now`.
   */
  datatype Frame = Frame(mouseHeld: bool, mouseReleased: bool, hovered: int, now: int)

  datatype Effect = SetupWordProfile(released: bool) | ClearMicData | SaveProfile(path: string)

  /** The start guard's view of the state: no button claimed and no timer running. */
  predicate Idle(s: Session)
  {
    s.buttonIndex == -1 && s.timerStart == MinValue
  }

  /** The invariant the GUI keeps over `n` rows: a recording row, a running timer and the recording flag go together. */
  predicate Valid(s: Session, n: nat)
  {
    && (s.buttonIndex == -1 <==> s.timerStart == MinValue)
    && (s.recording <==> s.buttonIndex != -1)
    && -1 <= s.buttonIndex < n
  }

  /** Both finalize paths: timer cleared, no row claimed, recording over. `m_startPosition` is left as it was. */
  function Reset(s: Session): Session
  {
    s.(buttonIndex := -1, timerStart := MinValue, recording := false)
  }

  /** The effects of the timed-out path: the profile is built from the full window, the mic data cleared, nothing saved. */
  const TimedOut: seq<Effect> := [SetupWordProfile(false), ClearMicData]

  /** The effects of the released path: the profile is built, the mic data cleared, and the word saved under `path`. */
  function Released(path: string): seq<Effect>
  {
    [SetupWordProfile(true), ClearMicData, SaveProfile(path)]
  }

  /**
   * The enrollment logic for row `w`, whose label is `caption`, with the mic's
   * position and capture time (seconds) as `Mic.GetPosition()` and
   * `Mic.CaptureTime` report them. The start check comes first, so a
   * recording may start and finalize in the same step; the timeout test comes
   * before the release test.
   */
  function ButtonStep(s: Session, w: nat, caption: string, f: Frame, position: int, captureTime: int,
                      typeName: string): (r: (Session, seq<Effect>))
    // Rows that neither start nor hold the recording are untouched.
    ensures s.buttonIndex != w && !(Idle(s) && f.mouseHeld && f.hovered == w) ==> r == (s, [])
    // A step has exactly one of three effect lists, and any finalize leaves the state reset.
    ensures r.1 == [] || r.1 == TimedOut || r.1 == Released(ProfilePath(typeName, caption))
    ensures r.1 != [] ==> Idle(r.0) && !r.0.recording
    // At most one row is ever claimed.
    ensures r.0.buttonIndex == s.buttonIndex || r.0.buttonIndex == -1 || r.0.buttonIndex == w
    ensures (s.buttonIndex == -1 <==> s.timerStart == MinValue) && (s.recording <==> s.buttonIndex != -1) ==>
              (r.0.buttonIndex == -1 <==> r.0.timerStart == MinValue) && (r.0.recording <==> r.0.buttonIndex != -1)
    // Start: an idle state, the mouse held down over this row's button.
    ensures Idle(s) && f.mouseHeld && f.hovered == w && captureTime > 0 && !f.mouseReleased ==>
              r == (Session(w, At(f.now + captureTime * MillisPerSecond), position, true), [])
    // Hold: this row's deadline is still ahead and the button is not released.
    ensures s.buttonIndex == w && After(s.timerStart, f.now) && !f.mouseReleased ==>
              r == (s.(recording := true), [])
    // Timed out: the deadline has passed; this wins over a release in the same step, and nothing is saved.
    ensures s.buttonIndex == w && s.timerStart.At? && s.timerStart.ms < f.now ==>
              r == (Reset(s), TimedOut)
    // Exactly at the deadline with the button still down, no branch applies and nothing changes.
    ensures s.buttonIndex == w && s.timerStart == At(f.now) && !f.mouseReleased ==> r == (s, [])
    // Released: the button came up with the deadline not yet passed; only this path saves.
    ensures s.buttonIndex == w && s.timerStart.At? && s.timerStart.ms >= f.now && f.mouseReleased ==>
              r == (Reset(s), Released(ProfilePath(typeName, caption)))
  {
    var s1 := if Idle(s) && f.mouseHeld && f.hovered == w
              then Session(w, At(f.now + captureTime * MillisPerSecond), position, true)
              else s;
    if s1.buttonIndex != w then (s1, [])
    else if After(s1.timerStart, f.now) && !f.mouseReleased then (s1.(recording := true), [])
    else if s1.timerStart != MinValue && Before(s1.timerStart, f.now) then (Reset(s1), TimedOut)
    else if s1.timerStart != MinValue && f.mouseReleased && s1.buttonIndex != -1 then
      (Reset(s1), Released(ProfilePath(typeName, caption)))
    else (s1, [])
  }

  /** The `for` loop of `OnGUI` from row `i` on, collecting the effects in order. */
  function PassFrom(s: Session, i: nat, labels: seq<string>, f: Frame, position: int, captureTime: int,
                    typeName: string): (r: (Session, seq<Effect>))
    requires i <= |labels|
    ensures Valid(s, |labels|) ==> Valid(r.0, |labels|)
    decreases |labels| - i
  {
    if i == |labels| then (s, [])
    else
      var (s1, e1) := ButtonStep(s, i, labels[i], f, position, captureTime, typeName);
      var (s2, e2) := PassFrom(s1, i + 1, labels, f, position, captureTime, typeName);
      (s2, e1 + e2)
  }

  /**
   * One `OnGUI` call over a vocabulary labelled `labels`. Without a device
   * name it returns at once, and while the base class finds no noise word
   * (`GetWord(WORD_NOISE)` is null) every row is skipped.
   */
  function Pass(s: Session, labels: seq<string>, f: Frame, mic: Mic, noiseWordPresent: bool,
                typeName: string): (r: (Session, seq<Effect>))
    ensures Valid(s, |labels|) ==> Valid(r.0, |labels|)
    ensures mic.deviceName == "" || !noiseWordPresent ==> r == (s, [])
  {
    if mic.deviceName == "" || !noiseWordPresent then (s, [])
    else PassFrom(s, 0, labels, f, GetPosition(mic), mic.captureTime, typeName)
  }

  /** An idle state stays idle, with no effects, when no button from row `i` on is pressed. */
  lemma {:induction false} PassQuietWhenIdle(s: Session, i: nat, labels: seq<string>, f: Frame, position: int,
                                             captureTime: int, typeName: string)
    requires i <= |labels|
    requires Valid(s, |labels|) && Idle(s)
    requires !f.mouseHeld || f.hovered < i || f.hovered >= |labels|
    ensures PassFrom(s, i, labels, f, position, captureTime, typeName) == (s, [])
    decreases |labels| - i
  {
    if i < |labels| {
      assert ButtonStep(s, i, labels[i], f, position, captureTime, typeName) == (s, []);
      PassQuietWhenIdle(s, i + 1, labels, f, position, captureTime, typeName);
      var none: seq<Effect> := []; assert none + none == none;
    }
  }

  /** While the deadline is ahead and the button is not released, a pass changes nothing and has no effects. */
  lemma {:induction false} PassHolds(s: Session, i: nat, labels: seq<string>, f: Frame, position: int,
                                     captureTime: int, typeName: string)
    requires i <= |labels|
    requires Valid(s, |labels|) && s.recording
    requires After(s.timerStart, f.now) && !f.mouseReleased
    ensures PassFrom(s, i, labels, f, position, captureTime, typeName) == (s, [])
    decreases |labels| - i
  {
    if i < |labels| {
      assert ButtonStep(s, i, labels[i], f, position, captureTime, typeName) == (s, []);
      PassHolds(s, i + 1, labels, f, position, captureTime, typeName);
      var none: seq<Effect> := []; assert none + none == none;
    }
  }

  /**
   * Rows before the recording row are passed over, the recording row
   * finalizes with `step`, and the rows after it see an idle state.
   */
  lemma {:induction false} PassFinalizes(s: Session, i: nat, labels: seq<string>, f: Frame, position: int,
                                         captureTime: int, typeName: string, effects: seq<Effect>)
    requires i <= |labels|
    requires Valid(s, |labels|) && s.recording && i <= s.buttonIndex
    requires ButtonStep(s, s.buttonIndex, labels[s.buttonIndex], f, position, captureTime, typeName) == (Reset(s), effects)
    requires !f.mouseHeld || f.hovered <= s.buttonIndex || f.hovered >= |labels|
    ensures PassFrom(s, i, labels, f, position, captureTime, typeName) == (Reset(s), effects)
    decreases |labels| - i
  {
    assert i < |labels|;
    if i == s.buttonIndex {
      PassQuietWhenIdle(Reset(s), i + 1, labels, f, position, captureTime, typeName);
      assert effects + [] == effects;
    } else {
      assert ButtonStep(s, i, labels[i], f, position, captureTime, typeName) == (s, []);
      PassFinalizes(s, i + 1, labels, f, position, captureTime, typeName, effects);
      assert [] + effects == effects;
    }
  }

  /**
   * Once the deadline has passed the recording is finalized on the timed-out
   * path, whether or not the button was also released, and nothing is saved
   * (unless the mouse is then held over a later row, which may start anew).
   */
  lemma PassTimesOut(s: Session, labels: seq<string>, f: Frame, mic: Mic, typeName: string)
    requires Valid(s, |labels|) && s.recording && mic.deviceName != ""
    requires s.timerStart.At? && s.timerStart.ms < f.now
    requires !f.mouseHeld || f.hovered <= s.buttonIndex || f.hovered >= |labels|
    ensures Pass(s, labels, f, mic, true, typeName) == (Reset(s), TimedOut)
  {
    PassFinalizes(s, 0, labels, f, GetPosition(mic), mic.captureTime, typeName, TimedOut);
  }

  /** A release before the deadline finalizes on the released path and saves under the recorded row's label. */
  lemma PassReleases(s: Session, labels: seq<string>, f: Frame, mic: Mic, typeName: string)
    requires Valid(s, |labels|) && s.recording && mic.deviceName != ""
    requires s.timerStart.At? && s.timerStart.ms >= f.now && f.mouseReleased
    requires !f.mouseHeld || f.hovered <= s.buttonIndex || f.hovered >= |labels|
    ensures Pass(s, labels, f, mic, true, typeName)
            == (Reset(s), Released(ProfilePath(typeName, labels[s.buttonIndex])))
  {
    PassFinalizes(s, 0, labels, f, GetPosition(mic), mic.captureTime, typeName,
                  Released(ProfilePath(typeName, labels[s.buttonIndex])));
  }

  /**
   * From idle, holding the mouse over row `hovered` starts recording that row:
   * the mic's current position is remembered and the deadline set
   * `CaptureTime` seconds ahead.
   */
  lemma {:induction false} PassStartsFrom(s: Session, i: nat, labels: seq<string>, f: Frame, position: int,
                                          captureTime: int, typeName: string)
    requires i <= f.hovered < |labels|
    requires Valid(s, |labels|) && Idle(s)
    requires f.mouseHeld && !f.mouseReleased && captureTime > 0
    ensures PassFrom(s, i, labels, f, position, captureTime, typeName)
            == (Session(f.hovered, At(f.now + captureTime * MillisPerSecond), position, true), [])
    decreases |labels| - i
  {
    if i == f.hovered {
      var started := Session(f.hovered, At(f.now + captureTime * MillisPerSecond), position, true);
      assert After(started.timerStart, f.now);
      PassHolds(started, i + 1, labels, f, position, captureTime, typeName);
      var none: seq<Effect> := []; assert none + none == none;
    } else {
      assert ButtonStep(s, i, labels[i], f, position, captureTime, typeName) == (s, []);
      PassStartsFrom(s, i + 1, labels, f, position, captureTime, typeName);
      var none: seq<Effect> := []; assert none + none == none;
    }
  }

  lemma PassStarts(s: Session, labels: seq<string>, f: Frame, mic: Mic, typeName: string)
    requires 0 <= f.hovered < |labels| && mic.deviceName != ""
    requires Valid(s, |labels|) && Idle(s)
    requires f.mouseHeld && !f.mouseReleased && mic.captureTime > 0
    ensures Pass(s, labels, f, mic, true, typeName)
            == (Session(f.hovered, At(f.now + mic.captureTime * MillisPerSecond), GetPosition(mic), true), [])
  {
    PassStartsFrom(s, 0, labels, f, GetPosition(mic), mic.captureTime, typeName);
  }

  /** Every file a pass from row `i` on saves is the profile key of a label from row `i` on. */
  lemma {:induction false} SavesUseKeysFrom(s: Session, i: nat, labels: seq<string>, f: Frame, position: int,
                                            captureTime: int, typeName: string)
    requires i <= |labels|
    ensures forall e :: e in PassFrom(s, i, labels, f, position, captureTime, typeName).1 && e.SaveProfile? ==>
              exists j :: i <= j < |labels| && e.path == ProfilePath(typeName, labels[j])
    decreases |labels| - i
  {
    if i < |labels| {
      var step := ButtonStep(s, i, labels[i], f, position, captureTime, typeName);
      SavesUseKeysFrom(step.0, i + 1, labels, f, position, captureTime, typeName);
    }
  }

  /** Every file a pass saves is the profile key of one of the vocabulary's labels. */
  lemma SavesUseVocabularyKeys(s: Session, labels: seq<string>, f: Frame, mic: Mic, noiseWordPresent: bool,
                               typeName: string)
    ensures forall e :: e in Pass(s, labels, f, mic, noiseWordPresent, typeName).1 && e.SaveProfile? ==>
              exists j :: 0 <= j < |labels| && e.path == ProfilePath(typeName, labels[j])
  {
    SavesUseKeysFrom(s, 0, labels, f, GetPosition(mic), mic.captureTime, typeName);
  }

  /**
   * A pass that finalizes a recording, on the timeout or the released path,
   * leaves a recording mic's fetch buffer zeroed once its effects are applied.
   */
  lemma FinalizingPassClearsMic(s: Session, labels: seq<string>, f: Frame, mic: Mic, typeName: string)
    requires Valid(s, |labels|) && s.recording && mic.deviceName != ""
    requires s.timerStart.At? && (s.timerStart.ms < f.now || f.mouseReleased)
    requires !f.mouseHeld || f.hovered <= s.buttonIndex || f.hovered >= |labels|
    requires mic.clipPresent && mic.recording
    ensures var (s1, effects) := Pass(s, labels, f, mic, true, typeName);
            && s1 == Reset(s)
            && var m := ApplyToMic(mic, effects);
            && |m.fetch| == |mic.fetch| && AllZero(m.fetch)
            && m.(fetch := mic.fetch) == mic
  {
    if s.timerStart.ms < f.now {
      PassTimesOut(s, labels, f, mic, typeName);
      assert TimedOut[1] == ClearMicData;
    } else {
      PassReleases(s, labels, f, mic, typeName);
      assert Released(ProfilePath(typeName, labels[s.buttonIndex]))[1] == ClearMicData;
    }
  }

  /** What the reported effects do to the device: `ClearMicData` is `Mic.ClearData()`. */
  function ApplyToMic(mic: Mic, effects: seq<Effect>): (r: Mic)
    ensures r.(fetch := mic.fetch) == mic
    ensures ClearMicData !in effects ==> r == mic
    ensures ClearMicData in effects && mic.clipPresent && mic.recording ==> AllZero(r.fetch) && |r.fetch| == |mic.fetch|
    decreases |effects|
  {
    if |effects| == 0 then mic
    else
      var m := if effects[0] == ClearMicData then ClearData(mic) else mic;
      ApplyToMic(m, effects[1..])
  }
}

=== FILE: example10.dfy ===
/**
 * `Example10`: verbal commands that show one of a set of facial expressions.
 * Each expression renderer's name is a command; a detected label selects the
 * expression of that name, or the noise renderer when none has it. Modelled:
 * the vocabulary built in `Start`, the detection handler with its clear-mic
 * timer, the renderer selection and timer of `Update`, and the enrollment pass
 * of `OnGUI`. Renderer duplication, audio playback and GUI layout are not.
 */
module Example10 {
  import opened Wrappers
  import opened Clock
  import opened SpectrumMicrophone
  import opened ProfileStore
  import opened Enrollment

  const TypeName: string := "Example10"

  /** The label of the baseline word, and the command selected when nothing was recognized. */
  const NoiseLabel: string := "Noise"

  /** After a non-noise detection the mic data is cleared once this many milliseconds have passed. */
  const ClearDelayMs: int := 200

  datatype State = State(session: Session, command: string, timerClearMic: Stamp)

  const Initial: State := State(Enrollment.Initial, NoiseLabel, MinValue)

  /**
   * `Start`: the noise word first, never loaded from a file, then one word per
   * expression name, in renderer order, each loaded from
   * `Assets/Example10_<name>.profile` when that file exists and loads.
   */
  function Start(expressionNames: seq<string>, store: Store): (v: seq<Word>)
    ensures |v| == 1 + |expressionNames|
    ensures v[0] == Word(NoiseLabel, None)
    ensures forall i :: 0 <= i < |expressionNames| ==> v[i + 1].name == expressionNames[i]
    ensures forall i :: 0 <= i < |expressionNames| ==> v[i + 1] == LoadWord(store, TypeName, expressionNames[i])
    ensures forall i :: 0 <= i < |expressionNames| && ProfilePath(TypeName, expressionNames[i]) !in store ==>
              v[i + 1].spectrum.None?
  {
    [Word(NoiseLabel, None)] + BuildVocabulary(expressionNames, store, TypeName)
  }

  /** A word enrolled and saved under an expression's name is what the next `Start` loads into that expression's row. */
  lemma EnrolledExpressionReloads(expressionNames: seq<string>, store: Store, b: nat, w: Word)
    requires b < |expressionNames| && w.name == expressionNames[b]
    ensures Start(expressionNames, SaveWord(store, TypeName, w, true))[b + 1] == w
  {
    SaveLoadRoundTrip(store, TypeName, w);
  }

  /**
   * The noise row is saved like any other (`Assets/Example10_Noise.profile`),
   * but `Start` never reads that file back: the baseline is enrolled afresh
   * in every session.
   */
  lemma NoiseProfileNotReloaded(expressionNames: seq<string>, store: Store, spectrum: Option<seq<real>>)
    ensures var saved := SaveWord(store, TypeName, Word(NoiseLabel, spectrum), true);
            && LoadWord(saved, TypeName, NoiseLabel).spectrum == spectrum
            && Start(expressionNames, saved)[0].spectrum.None?
  {
    SaveLoadRoundTrip(store, TypeName, Word(NoiseLabel, spectrum));
  }

  /**
   * `WordDetectedHandler` at time `now`. `details` is the event's
   * `args.Details`, `None` for null, holding its `Label` ("" also stands for a
   * null label). While recording, events are ignored. No details or an empty
   * label select the noise command; any other label becomes the command, and
   * unless it is the noise label it arms the clear-mic timer.
   */
  function WordDetectedHandler(st: State, details: Option<string>, now: int): (r: State)
    ensures st.session.recording ==> r == st
    ensures r.session == st.session
    ensures !st.session.recording && (details.None? || details.value == "") ==> r == st.(command := NoiseLabel)
    ensures !st.session.recording && details.Some? && details.value != "" ==> r.command == details.value
    ensures !st.session.recording && details.Some? && details.value != "" && details.value != NoiseLabel ==>
              r.timerClearMic == At(now + ClearDelayMs)
    ensures r.timerClearMic != st.timerClearMic ==> r.timerClearMic == At(now + ClearDelayMs) && r.command != NoiseLabel
  {
    if st.session.recording then st
    else if details.None? || details.value == "" then st.(command := NoiseLabel)
    else if details.value != NoiseLabel then
      st.(command := details.value, timerClearMic := At(now + ClearDelayMs))
    else st.(command := details.value)
  }

  /**
   * The `foreach` over the expression renderers in `Update`: renderer `i` is
   * enabled exactly when its name is the command, and `found` records whether
   * any was.
   */
  function SelectExpressions(names: seq<string>, command: string): (r: (seq<bool>, bool))
    ensures |r.0| == |names|
    ensures forall i :: 0 <= i < |names| ==> (r.0[i] <==> names[i] == command)
    ensures r.1 <==> command in names
  {
    if |names| == 0 then ([], false)
    else
      var (enabled, found) := SelectExpressions(names[..|names| - 1], command);
      var hit := names[|names| - 1] == command;
      assert names == names[..|names| - 1] + [names[|names| - 1]];
      (enabled + [hit], found || hit)
  }

  /** Which renderers `Update` leaves enabled: one flag per expression, and the noise renderer's. */
  datatype Display = Display(expressions: seq<bool>, noise: bool)

  /**
   * `Update` at time `now` over renderers named `names`. While recording it
   * returns at once, touching no renderer (`None`). Otherwise it enables the
   * renderers named by the command, enables the noise renderer exactly when
   * there is none, and polls the clear-mic timer, running `Mic.ClearData()`
   * when it fires.
   */
  function Update(st: State, names: seq<string>, mic: Mic, now: int): (r: (State, Option<Display>, Mic))
    ensures st.session.recording ==> r == (st, None, mic)
    ensures !st.session.recording ==>
              && r.1.Some? && |r.1.value.expressions| == |names|
              && (forall i :: 0 <= i < |names| ==> (r.1.value.expressions[i] <==> names[i] == st.command))
              && (r.1.value.noise <==> st.command !in names)
    ensures r.0.session == st.session && r.0.command == st.command
    ensures !st.session.recording && st.timerClearMic.At? && st.timerClearMic.ms < now ==>
              r.0.timerClearMic == MinValue && r.2 == ClearData(mic)
    ensures !(st.timerClearMic.At? && st.timerClearMic.ms < now) ==> r.0 == st && r.2 == mic
  {
    if st.session.recording then (st, None, mic)
    else
      var (enabled, found) := SelectExpressions(names, st.command);
      var (timer, fired) := Poll(st.timerClearMic, now);
      (st.(timerClearMic := timer), Some(Display(enabled, !found)), if fired then ClearData(mic) else mic)
  }

  /**
   * A recognized expression name is shown on the next `Update`, alone when the
   * names are distinct, and the noise renderer is hidden; a label naming no
   * renderer shows the noise renderer only.
   */
  lemma DetectionSelectsExpression(st: State, heard: string, names: seq<string>, mic: Mic, now: int, later: int)
    requires !st.session.recording && heard != ""
    ensures var d := Update(WordDetectedHandler(st, Some(heard), now), names, mic, later).1;
            && d.Some?
            && (forall i :: 0 <= i < |names| ==> (d.value.expressions[i] <==> names[i] == heard))
            && (d.value.noise <==> heard !in names)
  {
  }

  /**
   * A non-noise detection clears the mic data exactly once: updates up to the
   * deadline leave the mic alone, the first one past it clears it, and the
   * next ones leave it alone again.
   */
  lemma DetectionClearsMicOnce(st: State, heard: string, names: seq<string>, mic: Mic, now: int,
                               early: int, late: int, after: int)
    requires !st.session.recording && heard != "" && heard != NoiseLabel
    requires early <= now + ClearDelayMs < late
    ensures var st1 := WordDetectedHandler(st, Some(heard), now);
            && Update(st1, names, mic, early).2 == mic
            && Update(st1, names, mic, early).0 == st1
            && Update(st1, names, mic, late).2 == ClearData(mic)
            && Update(Update(st1, names, mic, late).0, names, mic, after).2 == mic
  {
  }

  /** `OnGUI`: the shared enrollment pass over the vocabulary's labels, saving under this class's name. */
  function OnGUI(st: State, vocabulary: seq<Word>, f: Frame, mic: Mic, noiseWordPresent: bool): (r: (State, seq<Effect>))
    ensures r.0.command == st.command && r.0.timerClearMic == st.timerClearMic
    ensures Valid(st.session, |vocabulary|) ==> Valid(r.0.session, |vocabulary|)
    ensures mic.deviceName == "" || !noiseWordPresent ==> r == (st, [])
    ensures forall e :: e in r.1 && e.SaveProfile? ==>
              exists i :: 0 <= i < |vocabulary| && e.path == ProfilePath(TypeName, vocabulary[i].name)
  {
    var (session, effects) := Pass(st.session, Names(vocabulary), f, mic, noiseWordPresent, TypeName);
    SavesUseVocabularyKeys(st.session, Names(vocabulary), f, mic, noiseWordPresent, TypeName);
    (st.(session := session), effects)
  }

  /**
   * Before any detection the command is the noise label: the first update
   * shows the noise renderer unless an expression is itself named "Noise",
   * and leaves the mic data alone.
   */
  lemma InitialShowsNoise(names: seq<string>, mic: Mic, now: int)
    ensures var (st, d, m) := Update(Initial, names, mic, now);
            && st == Initial && m == mic
            && d.Some? && (d.value.noise <==> NoiseLabel !in names)
  {
  }

  /** Recording suspends recognition: while a row is being recorded, detections and updates change nothing. */
  lemma RecordingSuspendsRecognition(st: State, details: Option<string>, names: seq<string>, mic: Mic, now: int)
    requires st.session.recording
    ensures WordDetectedHandler(st, details, now) == st
    ensures Update(st, names, mic, now) == (st, None, mic)
  {
  }
}

=== FILE: example16.dfy ===
/**
 * `Example16`: voice commands "One" .. "Five" (plus the "Noise" baseline)
 * selecting videos. Modelled: the vocabulary built in `Start`, the detection
 * handler, the recording guard and clear-mic timer of `Update`, and the
 * enrollment pass of `OnGUI`. Video, material and audio playback are not.
 */
module Example16 {
  import opened Wrappers
  import opened Clock
  import opened SpectrumMicrophone
  import opened ProfileStore
  import opened Enrollment

  datatype Command = Noise | One | Two | Three | Four | Five

  /** The enum member's name, as `Enum.GetNames` and `Enum.Parse` spell it. */
  function Name(c: Command): string
  {
    match c
    case Noise => "Noise"
    case One => "One"
    case Two => "Two"
    case Three => "Three"
    case Four => "Four"
    case Five => "Five"
  }

  /** `Enum.GetNames(typeof(Commands))`: the names in declaration order. */
  const CommandNames: seq<string> := [Name(Noise), Name(One), Name(Two), Name(Three), Name(Four), Name(Five)]

  /**
   * `Enum.Parse(typeof(Commands), text, false)` on member names: an exact,
   * case-sensitive match. Any other text makes it throw (`None`).
   */
  function Parse(text: string): (r: Option<Command>)
    ensures r.Some? <==> text in CommandNames
    ensures r.Some? ==> Name(r.value) == text
  {
    if text == "Noise" then Some(Noise)
    else if text == "One" then Some(One)
    else if text == "Two" then Some(Two)
    else if text == "Three" then Some(Three)
    else if text == "Four" then Some(Four)
    else if text == "Five" then Some(Five)
    else None
  }

  /** Every command is parsed back from its own name. */
  lemma ParseName(c: Command)
    ensures Parse(Name(c)) == Some(c)
  {
  }

  const TypeName: string := "Example16"

  datatype State = State(session: Session, command: Command, timerClearMic: Stamp)

  const Initial: State := State(Enrollment.Initial, Noise, MinValue)

  /**
   * `Start`: one word per command name, in enum order, each loaded from
   * `Assets/Example16_<name>.profile` when that file exists and loads.
   * Without a video stage it logs an error and builds no vocabulary.
   */
  function Start(store: Store, stagePresent: bool): (v: seq<Word>)
    ensures !stagePresent ==> v == []
    ensures stagePresent ==> |v| == |CommandNames| == 6 && v[0].name == "Noise"
    ensures stagePresent ==> forall i :: 0 <= i < |v| ==> v[i].name == CommandNames[i]
    ensures stagePresent ==> forall i :: 0 <= i < |v| ==> v[i] == LoadWord(store, TypeName, CommandNames[i])
    ensures stagePresent ==>
              forall i :: 0 <= i < |v| && ProfilePath(TypeName, CommandNames[i]) !in store ==> v[i].spectrum.None?
  {
    if stagePresent then BuildVocabulary(CommandNames, store, TypeName) else []
  }

  /**
   * A word enrolled and saved under its command name is what the next
   * `Start` loads into that word's slot: save and load use the same key.
   */
  lemma EnrolledWordReloads(store: Store, b: nat, w: Word)
    requires b < |CommandNames| && w.name == CommandNames[b]
    ensures Start(SaveWord(store, TypeName, w, true), true)[b] == w
  {
    SaveLoadRoundTrip(store, TypeName, w);
  }

  /**
   * `WordDetectedHandler`. `details` is the event's `args.Details`, `None` for
   * null, holding its `Label` ("" also stands for a null label). While
   * recording, events are ignored. No details or an empty label select
   * `Noise`; otherwise the label is parsed, and a label that names no command
   * throws before the command is assigned.
   */
  function WordDetectedHandler(st: State, details: Option<string>): (r: State)
    ensures st.session.recording ==> r == st
    ensures r.session == st.session && r.timerClearMic == st.timerClearMic
    ensures !st.session.recording && (details.None? || details.value == "") ==> r.command == Noise
    ensures !st.session.recording ==> forall c :: details == Some(Name(c)) ==> r.command == c
    ensures details.Some? && details.value != "" && details.value !in CommandNames ==> r == st
  {
    if st.session.recording then st
    else if details.None? || details.value == "" then st.(command := Noise)
    else
      match Parse(details.value)
      case Some(c) => st.(command := c)
      case None => st
  }

  /**
   * `Update`, as far as it concerns the model: it returns at once while
   * recording or without a video stage; otherwise the clear-mic timer is
   * polled and, when it fires, `Mic.ClearData()` runs.
   */
  function Update(st: State, stagePresent: bool, mic: Mic, now: int): (r: (State, Mic))
    ensures st.session.recording || !stagePresent ==> r == (st, mic)
    ensures r.0.session == st.session && r.0.command == st.command
    ensures !st.session.recording && stagePresent && st.timerClearMic.At? && st.timerClearMic.ms < now ==>
              r.0.timerClearMic == MinValue && r.1 == ClearData(mic)
    ensures !(st.timerClearMic.At? && st.timerClearMic.ms < now) ==> r == (st, mic)
  {
    if st.session.recording || !stagePresent then (st, mic)
    else
      var (timer, fired) := Poll(st.timerClearMic, now);
      (st.(timerClearMic := timer), if fired then ClearData(mic) else mic)
  }

  /**
   * Nothing in this class arms `m_timerClearMic`: from a disarmed timer,
   * detection events and updates leave the mic data alone.
   */
  lemma ClearMicTimerStaysDisarmed(st: State, details: Option<string>, stagePresent: bool, mic: Mic, now: int)
    requires st.timerClearMic == MinValue
    ensures WordDetectedHandler(st, details).timerClearMic == MinValue
    ensures Update(WordDetectedHandler(st, details), stagePresent, mic, now).1 == mic
  {
  }

  /** From the initial state no update ever clears the mic data, whatever is detected first. */
  lemma InitialNeverClearsMic(details: Option<string>, stagePresent: bool, mic: Mic, now: int)
    ensures Update(WordDetectedHandler(Initial, details), stagePresent, mic, now).1 == mic
  {
    ClearMicTimerStaysDisarmed(Initial, details, stagePresent, mic, now);
  }

  /** `OnGUI`: the shared enrollment pass over the vocabulary's labels, saving under this class's name. */
  function OnGUI(st: State, vocabulary: seq<Word>, f: Frame, mic: Mic, noiseWordPresent: bool): (r: (State, seq<Effect>))
    ensures r.0.command == st.command && r.0.timerClearMic == st.timerClearMic
    ensures Valid(st.session, |vocabulary|) ==> Valid(r.0.session, |vocabulary|)
    ensures forall e :: e in r.1 && e.SaveProfile? ==>
              exists i :: 0 <= i < |vocabulary| && e.path == ProfilePath(TypeName, vocabulary[i].name)
  {
    var (session, effects) := Pass(st.session, Names(vocabulary), f, mic, noiseWordPresent, TypeName);
    SavesUseVocabularyKeys(st.session, Names(vocabulary), f, mic, noiseWordPresent, TypeName);
    (st.(session := session), effects)
  }
}

=== FILE: inspector.dfy ===
/**
 * `SpectrumMicrophoneInspector.OnInspectorGUI`: the editor rounds each edited
 * capture parameter down to a power of two and clamps it into its range, and
 * reallocates the component's buffers when a parameter changed while playing.
 *
 * `(int)Mathf.Log(x, 2)` is modelled as the exact integer floor of log2 for
 * `x >= 1`; for `x <= 0` the float logarithm is not finite and the cast is
 * taken to yield a large negative exponent, so `Mathf.Pow` gives 0.
 */
module SpectrumMicrophoneInspector {
  import opened SignalConditioning
  import opened SpectrumMicrophone

  function Pow2(k: nat): (r: int)
    ensures r >= 1 && IsPow2(r)
  {
    if k == 0 then 1
    else
      var h := Pow2(k - 1);
      assert (2 * h) / 2 == h;
      2 * h
  }

  /** `(int)Mathf.Log(x, 2)` for `x >= 1`: the exponent of the largest power of two not above `x`. */
  function FloorLog2(x: int): (k: nat)
    requires x >= 1
    ensures Pow2(k) <= x < 2 * Pow2(k)
  {
    if x == 1 then 0 else 1 + FloorLog2(x / 2)
  }

  /** Two powers of two within a factor of two of each other are equal. */
  lemma {:induction false} Pow2Unique(a: int, b: int)
    requires IsPow2(a) && IsPow2(b)
    requires a <= b < 2 * a
    ensures a == b
    decreases a
  {
    if a != 1 && b != 1 {
      Pow2Unique(a / 2, b / 2);
    }
  }

  /** `(int)Mathf.Pow(2, (int)Mathf.Log(x, 2))`: `x` rounded down to a power of two. */
  function RoundDownPow2(x: int): (r: int)
    ensures x >= 1 ==> IsPow2(r) && r <= x < 2 * r
    ensures x < 1 ==> r == 0
  {
    if x >= 1 then Pow2(FloorLog2(x)) else 0
  }

  /** A power of two is its own rounding. */
  lemma RoundDownFixesPowers(x: int)
    requires IsPow2(x)
    ensures RoundDownPow2(x) == x
  {
    Pow2Unique(RoundDownPow2(x), x);
  }

  /** `Mathf.Max(Mathf.Min(p, hi), lo)`. */
  function Clamp(p: int, lo: int, hi: int): int
  {
    var capped := if p < hi then p else hi;
    if capped < lo then lo else capped
  }

  lemma {:induction false} ClampedRoundDown(x: int, lo: int, hi: int)
    requires IsPow2(lo) && IsPow2(hi) && lo <= hi
    ensures var r := Clamp(RoundDownPow2(x), lo, hi);
            && IsPow2(r) && lo <= r <= hi
            && (lo <= x <= hi ==> r <= x < 2 * r)
            && (x >= hi ==> r == hi)
            && (x < lo ==> r == lo)
            && (r == x <==> IsPow2(x) && lo <= x <= hi)
  {
    var p := RoundDownPow2(x);
    if x >= hi {
      if p < hi {
        assert hi <= x < 2 * p;
        Pow2Unique(p, hi);
      }
    }
    if IsPow2(x) && lo <= x <= hi {
      RoundDownFixesPowers(x);
    }
  }

  /**
   * The rule the inspector applies to one parameter: round down to a power of
   * two, then `Mathf.Min` with the upper bound, then `Mathf.Max` with the lower.
   */
  function Normalize(x: int, lo: int, hi: int): (r: int)
    requires IsPow2(lo) && IsPow2(hi) && lo <= hi
    ensures IsPow2(r) && lo <= r <= hi
    ensures lo <= x <= hi ==> r <= x < 2 * r
    ensures x >= hi ==> r == hi
    ensures x < lo ==> r == lo
    ensures r == x <==> IsPow2(x) && lo <= x <= hi
  {
    ClampedRoundDown(x, lo, hi);
    Clamp(RoundDownPow2(x), lo, hi)
  }

  /** `Normalize` is idempotent: a normalized parameter survives another pass of the inspector. */
  lemma NormalizeIdempotent(x: int, lo: int, hi: int)
    requires IsPow2(lo) && IsPow2(hi) && lo <= hi
    ensures Normalize(Normalize(x, lo, hi), lo, hi) == Normalize(x, lo, hi)
  {
  }

  lemma Bounds()
    ensures IsPow2(1) && IsPow2(16) && IsPow2(1024) && IsPow2(65536)
  {
    assert IsPow2(2) && IsPow2(4) && IsPow2(8);
    assert IsPow2(32) && IsPow2(64) && IsPow2(128) && IsPow2(256) && IsPow2(512);
    assert IsPow2(2048) && IsPow2(4096) && IsPow2(8192) && IsPow2(16384) && IsPow2(32768);
  }

  /** The capture time after the inspector: a power of two of seconds in [1, 16]. */
  function NormalizeCaptureTime(x: Int32): (r: Int32)
    ensures IsPow2(r) && 1 <= r <= 16
    ensures 1 <= x <= 16 ==> r <= x < 2 * r
    ensures x >= 16 ==> r == 16
    ensures x < 1 ==> r == 1
    ensures r == x <==> IsPow2(x) && 1 <= x <= 16
  {
    Bounds();
    Normalize(x, 1, 16)
  }

  /** The sample rate after the inspector: a power of two in [1024, 65536]. */
  function NormalizeSampleRate(x: Int32): (r: Int32)
    ensures IsPow2(r) && 1024 <= r <= 65536
    ensures 1024 <= x <= 65536 ==> r <= x < 2 * r
    ensures x >= 65536 ==> r == 65536
    ensures x < 1024 ==> r == 1024
    ensures r == x <==> IsPow2(x) && 1024 <= x <= 65536
  {
    Bounds();
    Normalize(x, 1024, 65536)
  }

  /** Out-of-range inputs land on the nearest bound. */
  lemma NormalizationClamps()
    ensures NormalizeCaptureTime(100) == 16 && NormalizeCaptureTime(0) == 1
    ensures NormalizeSampleRate(512) == 1024 && NormalizeSampleRate(100000) == 65536
  {
  }

  /** In-range inputs land on the power of two below them. */
  lemma NormalizationRoundsDown()
    ensures NormalizeCaptureTime(5) == 4
    ensures NormalizeSampleRate(44100) == 32768
  {
    assert IsPow2(4) && IsPow2(32768) by {
      Bounds();
    }
    PowerBelow(NormalizeCaptureTime(5), 5, 4);
    PowerBelow(NormalizeSampleRate(44100), 44100, 32768);
  }

  /** Only one power of two `r` has `r <= x < 2 * r`. */
  lemma PowerBelow(r: int, x: int, q: int)
    requires IsPow2(r) && IsPow2(q)
    requires r <= x < 2 * r && q <= x < 2 * q
    ensures r == q
  {
    if r <= q {
      Pow2Unique(r, q);
    } else {
      Pow2Unique(q, r);
    }
  }

  /**
   * `OnInspectorGUI` with the values typed into the two fields. The normalized
   * values are stored; when either differs from the value before and the
   * editor is playing, `CleanUp` and `InitData` reallocate the buffers for the
   * new parameters, which never overflow; otherwise the buffers are untouched.
   */
  function OnInspectorGUI(item: Mic, editedCaptureTime: Int32, editedSampleRate: Int32, playing: bool): (r: Mic)
    ensures r.captureTime == NormalizeCaptureTime(editedCaptureTime)
    ensures r.sampleRate == NormalizeSampleRate(editedSampleRate)
    ensures (r.captureTime != item.captureTime || r.sampleRate != item.sampleRate) && playing ==>
              && !r.clipPresent
              && |r.fetch| == r.sampleRate * r.captureTime && AllZero(r.fetch)
              && |r.complex| == r.sampleRate * r.captureTime && AllZero(r.complex)
              && AllZero(r.spectrumReal) && AllZero(r.spectrumImag)
              && 2 * |r.spectrumReal| == |r.fetch| && 2 * |r.spectrumImag| == |r.fetch|
    // Apart from the reallocated buffers, re-initialization is exactly `CleanUp` of the edited component.
    ensures (r.captureTime != item.captureTime || r.sampleRate != item.sampleRate) && playing ==>
              r.(fetch := item.fetch, complex := item.complex, spectrumReal := item.spectrumReal,
                 spectrumImag := item.spectrumImag)
              == CleanUp(item.(captureTime := r.captureTime, sampleRate := r.sampleRate))
    ensures !((r.captureTime != item.captureTime || r.sampleRate != item.sampleRate) && playing) ==>
              r == item.(captureTime := r.captureTime, sampleRate := r.sampleRate)
  {
    var captureTime := NormalizeCaptureTime(editedCaptureTime);
    var sampleRate := NormalizeSampleRate(editedSampleRate);
    var edited := item.(captureTime := captureTime, sampleRate := sampleRate);
    if (item.captureTime != captureTime || item.sampleRate != sampleRate) && playing then
      var cleaned := CleanUp(edited);
      NormalizedParametersAllocate(cleaned);
      InitData(cleaned).mic
    else
      edited
  }
}

=== FILE: microphone.dfy ===
/**
 * The buffer and device logic of `SpectrumMicrophone`. The Unity microphone,
 * its `AudioSource` and the recorded `AudioClip` are reduced to a record: is
 * there a clip, is the device recording, where is its ring-buffer write
 * position, and what the component last saw. The sample buffers the component
 * owns are sequences in the same record.
 */
module SpectrumMicrophone {
  import opened Wrappers
  import opened SignalConditioning

  const MinInt32: int := -0x8000_0000
  const MaxInt32: int := 0x7fff_ffff

  /** A C# `int`. */
  type Int32 = x: int | MinInt32 <= x <= MaxInt32

  /** Unchecked 32-bit two's-complement wrap-around, the C# default for `int` arithmetic. */
  function Wrap32(x: int): Int32
  {
    (x - MinInt32) % 0x1_0000_0000 + MinInt32
  }

  datatype Mic = Mic(
    deviceName: string,
    captureTime: Int32,        // seconds
    sampleRate: Int32,         // samples per second
    clipPresent: bool,         // GetComponent<AudioSource>().clip != null
    recording: bool,           // Microphone.IsRecording(DeviceName)
    position: int,             // Microphone.GetPosition(DeviceName)
    lastPosition: int,         // m_lastPosition
    fetch: seq<real>,          // m_fetchData
    complex: seq<real>,        // m_complex
    spectrumReal: seq<real>,   // m_spectrumReal
    spectrumImag: seq<real>)   // m_spectrumImag

  /**
   * `CleanUp`: a named device that is recording is stopped, and the clip is
   * destroyed. The buffers and the position tracker are left as they are.
   */
  function CleanUp(m: Mic): (r: Mic)
    ensures !r.clipPresent
    ensures r.recording <==> m.recording && m.deviceName == ""
    ensures r.(clipPresent := m.clipPresent, recording := m.recording) == m
  {
    var stopped := if m.deviceName != "" && m.recording then m.(recording := false) else m;
    stopped.(clipPresent := false)
  }

  lemma CleanUpIdempotent(m: Mic)
    ensures CleanUp(CleanUp(m)) == CleanUp(m)
  {
  }

  /**
   * The outcome of `InitData`. `SizeOverflow` is the `OverflowException` that
   * `new float[size]` throws when `SampleRate * CaptureTime` wraps to a
   * negative `int`; `CleanUp` has already run by then.
   */
  datatype InitResult = Allocated(mic: Mic) | SizeOverflow(mic: Mic)

  /** The buffer length `InitData` computes: the product in 32-bit arithmetic. */
  function BufferSize(m: Mic): Int32
  {
    Wrap32(m.sampleRate * m.captureTime)
  }

  /**
   * `InitData`: after `CleanUp`, the fetch and scratch buffers get
   * `SampleRate * CaptureTime` zeroed samples and both spectrum buffers half
   * of that. The position tracker `m_lastPosition` is not reset.
   */
  function InitData(m: Mic): (r: InitResult)
    ensures r.Allocated? <==> BufferSize(m) >= 0
    ensures r.SizeOverflow? ==> r.mic == CleanUp(m)
    ensures r.Allocated? ==>
              && |r.mic.fetch| == BufferSize(m) && |r.mic.complex| == BufferSize(m)
              && |r.mic.spectrumReal| == BufferSize(m) / 2 && |r.mic.spectrumImag| == BufferSize(m) / 2
              && AllZero(r.mic.fetch) && AllZero(r.mic.complex)
              && AllZero(r.mic.spectrumReal) && AllZero(r.mic.spectrumImag)
              && r.mic.(fetch := m.fetch, complex := m.complex,
                        spectrumReal := m.spectrumReal, spectrumImag := m.spectrumImag) == CleanUp(m)
  {
    var c := CleanUp(m);
    var size := BufferSize(m);
    if size < 0 then SizeOverflow(c)
    else
      var halfSize := size / 2;
      Allocated(c.(fetch := Zeros(size), complex := Zeros(size),
                   spectrumReal := Zeros(halfSize), spectrumImag := Zeros(halfSize)))
  }

  predicate IsPow2(x: int)
    decreases if x > 0 then x else 0
  {
    x == 1 || (x >= 2 && x % 2 == 0 && IsPow2(x / 2))
  }

  lemma {:induction false} Pow2Product(a: int, b: int)
    requires IsPow2(a) && IsPow2(b)
    ensures IsPow2(a * b) && a * b >= a && a * b >= b
    decreases a
  {
    if a != 1 {
      var h := a / 2;
      Pow2Product(h, b);
      var p := h * b;
      assert a == 2 * h;
      DoubleProduct(h, b);
      assert a * b == 2 * p;
      Pow2Double(p);
    }
  }

  lemma DoubleProduct(h: int, b: int)
    ensures (2 * h) * b == 2 * (h * b)
  {
  }

  /** Doubling a power of two gives a power of two. */
  lemma Pow2Double(p: int)
    requires IsPow2(p)
    ensures IsPow2(2 * p)
  {
    assert (2 * p) / 2 == p;
  }

  /**
   * With the capture parameters the inspector allows (a power of two of
   * seconds in [1, 16], a power-of-two sample rate in [1024, 65536]) the
   * product does not wrap: the buffer holds exactly `SampleRate * CaptureTime`
   * samples, a power of two, and the spectrum buffers exactly half of them.
   */
  lemma {:induction false} NormalizedParametersAllocate(m: Mic)
    requires IsPow2(m.captureTime) && 1 <= m.captureTime <= 16
    requires IsPow2(m.sampleRate) && 1024 <= m.sampleRate <= 65536
    ensures BufferSize(m) == m.sampleRate * m.captureTime
    ensures IsPow2(BufferSize(m)) && 1024 <= BufferSize(m) <= 0x10_0000
    ensures 2 * (BufferSize(m) / 2) == BufferSize(m)
    ensures InitData(m).Allocated?
  {
    var p := m.sampleRate * m.captureTime;
    ProductBounds(m.sampleRate, m.captureTime);
    Pow2Product(m.sampleRate, m.captureTime);
    NoWrap(p);
  }

  lemma ProductBounds(a: int, b: int)
    requires 1024 <= a <= 65536 && 1 <= b <= 16
    ensures 1024 <= a * b <= 0x10_0000
  {
    MulMonotone(a, 65536, b);
    MulMonotone(1, b, a);
  }

  /** Multiplication by a natural number is monotone. */
  lemma {:induction false} MulMonotone(a: int, c: int, b: nat)
    requires a <= c
    ensures a * b <= c * b
  {
    if b > 0 {
      MulMonotone(a, c, b - 1);
      assert a * b == a * (b - 1) + a;
      assert c * b == c * (b - 1) + c;
    }
  }

  lemma NoWrap(p: int)
    requires 0 <= p <= MaxInt32
    ensures Wrap32(p) == p
  {
    assert 0 <= p - MinInt32 < 0x1_0000_0000;
  }

  /** `ClearData`: with a clip and a recording device the fetch buffer is zeroed; otherwise nothing happens. */
  function ClearData(m: Mic): (r: Mic)
    ensures m.clipPresent && m.recording ==> |r.fetch| == |m.fetch| && AllZero(r.fetch)
    ensures !(m.clipPresent && m.recording) ==> r == m
    ensures r.(fetch := m.fetch) == m
  {
    if m.clipPresent && m.recording then m.(fetch := Zeros(|m.fetch|)) else m
  }

  /** `GetPosition`: the device's write position while it records, 0 otherwise. */
  function GetPosition(m: Mic): (r: int)
    ensures !m.recording ==> r == 0
    ensures m.recording ==> r == m.position
  {
    if m.recording then m.position else 0
  }

  /**
   * `GetData(sampleOffset)`. `clip(sampleOffset, i)` stands for the sample
   * `AudioClip.GetData` writes into slot `i` of the buffer when reading from
   * `sampleOffset`. Without a clip nothing changes. While recording, the
   * current position is always remembered, and the clip is copied only if that
   * position differs from the one remembered before.
   */
  function GetData(m: Mic, sampleOffset: int, clip: (int, nat) -> real): (r: (Mic, seq<real>))
    ensures r.1 == r.0.fetch && |r.1| == |m.fetch|
    ensures !m.clipPresent || !m.recording ==> r.0 == m
    ensures m.clipPresent && m.recording ==> r.0.lastPosition == m.position
    ensures m.clipPresent && m.recording && m.position == m.lastPosition ==> r.1 == m.fetch
    ensures m.clipPresent && m.recording && m.position != m.lastPosition ==>
              forall i :: 0 <= i < |r.1| ==> r.1[i] == clip(sampleOffset, i)
    ensures r.0.(fetch := m.fetch, lastPosition := m.lastPosition) == m
  {
    if !m.clipPresent then (m, m.fetch)
    else if m.recording then
      var hasChanged := m.position != m.lastPosition;
      var fetch := if hasChanged then seq(|m.fetch|, i requires 0 <= i < |m.fetch| => clip(sampleOffset, i))
                   else m.fetch;
      var m' := m.(lastPosition := m.position, fetch := fetch);
      (m', fetch)
    else (m, m.fetch)
  }

  /**
   * Polling twice without the device's position moving copies once: the
   * second call returns the first call's samples, whatever the clip holds by
   * then. Once the position moves, the next call copies again.
   */
  lemma GetDataCopiesOnlyOnAdvance(m: Mic, offset: int, clip1: (int, nat) -> real, clip2: (int, nat) -> real, p: int)
    requires m.clipPresent && m.recording
    ensures var (m1, d1) := GetData(m, offset, clip1);
            var (_, d2) := GetData(m1.(position := p), offset, clip2);
            && (p == m.position ==> d2 == d1)
            && (p != m.position ==> forall i :: 0 <= i < |d2| ==> d2[i] == clip2(offset, i))
  {
  }

  /** What `Microphone.Start` did when `Update` called it. */
  datatype StartOutcome = Started | StartFailed

  /**
   * `Update`: the lazy start of capture. `permitted` is false only for a web
   * player that has not been granted microphone access, in which case a
   * clip-less component returns early. An empty device name does nothing; a
   * missing clip is replaced by starting the device, and a failed start (an
   * exception, caught and logged) leaves the component idle for the next call.
   */
  function Update(m: Mic, permitted: bool, start: StartOutcome): (r: Mic)
    ensures m.deviceName == "" || m.clipPresent || !permitted || start.StartFailed? ==> r == m
    ensures m.deviceName != "" && !m.clipPresent && permitted && start.Started? ==>
              r == m.(clipPresent := true, recording := true)
  {
    if !m.clipPresent && !permitted then m
    else if m.deviceName == "" then m
    else if !m.clipPresent then
      match start
      case Started => m.(clipPresent := true, recording := true)
      case StartFailed => m
    else m
  }

  /** Once a clip exists, `Update` never starts the device again, even if it has stopped recording. */
  lemma UpdateIdempotentOnceStarted(m: Mic, permitted: bool, start: StartOutcome, permitted': bool, start': StartOutcome)
    requires Update(m, permitted, start).clipPresent
    ensures Update(Update(m, permitted, start), permitted', start') == Update(m, permitted, start)
  {
  }

  /**
   * The scratch-buffer check of `GetSpectrumData(samples, ...)`: no samples,
   * no change; otherwise the scratch buffer is reallocated only when it is
   * missing or its length differs from the samples'.
   */
  function ResizeScratch(complex: Option<seq<real>>, samples: Option<seq<real>>): (r: Option<seq<real>>)
    ensures samples.None? ==> r == complex
    ensures samples.Some? ==> r.Some? && |r.value| == |samples.value|
    ensures samples.Some? && complex.Some? && |complex.value| == |samples.value| ==> r == complex
    ensures samples.Some? && (complex.None? || |complex.value| != |samples.value|) ==> AllZero(r.value)
  {
    if samples.None? then complex
    else if complex.None? || |complex.value| != |samples.value| then Some(Zeros(|samples.value|))
    else complex
  }

  /** On the steady-state path, with the input length unchanged, a second call allocates nothing. */
  lemma ResizeScratchSteadyState(complex: Option<seq<real>>, samples: Option<seq<real>>)
    ensures ResizeScratch(ResizeScratch(complex, samples), samples) == ResizeScratch(complex, samples)
  {
  }
}

=== FILE: profiles.dfy ===
/**
 * Where the examples keep enrolled words: one file per word, keyed by the
 * example's type name and the word's label. The file system is a map from
 * path to record; the binary encoding of `SaveWord`/`LoadWord` is not part of
 * this model, so a record holds the word's spectrum as it was saved, or is
 * `Unreadable` when loading it throws.
 */
module ProfileStore {
  import opened Wrappers

  /** The part of a `WordDetails` the examples touch: its `Label`, and its spectrum, absent while the word is untrained. */
  datatype Word = Word(name: string, spectrum: Option<seq<real>>)

  datatype Record = Intact(spectrum: Option<seq<real>>) | Unreadable

  type Store = map<string, Record>

  const Folder: string := "Assets/"
  const Extension: string := ".profile"

  /** `string.Format("Assets/{0}_{1}.profile", GetType().Name, label)`. */
  function ProfilePath(typeName: string, name: string): (p: string)
    ensures |p| == |Folder| + |typeName| + 1 + |name| + |Extension|
    ensures p[..|Folder|] == Folder
    ensures p[|p| - |Extension|..] == Extension
  {
    Folder + typeName + "_" + name + Extension
  }

  /** The label a path was built from, read back from between the fixed prefix and suffix. */
  lemma ProfilePathLabel(typeName: string, name: string)
    ensures var p := ProfilePath(typeName, name);
            p[|Folder| + |typeName| + 1 .. |p| - |Extension|] == name
  {
    var p := ProfilePath(typeName, name);
    assert p == (Folder + typeName + "_") + name + Extension;
  }

  /**
   * Within one example, distinct labels never share a file, so saving one word
   * cannot overwrite another's profile.
   */
  lemma ProfilePathInjective(typeName: string, a: string, b: string)
    requires ProfilePath(typeName, a) == ProfilePath(typeName, b)
    ensures a == b
  {
    ProfilePathLabel(typeName, a);
    ProfilePathLabel(typeName, b);
  }

  /**
   * The load step of `Start` for one label: a missing file or one that fails
   * to load leaves the word untrained; an intact one supplies the spectrum. In
   * every case the word keeps the label it was created with.
   */
  function LoadWord(store: Store, typeName: string, name: string): (w: Word)
    ensures w.name == name
    ensures ProfilePath(typeName, name) !in store ==> w.spectrum.None?
    ensures ProfilePath(typeName, name) in store && store[ProfilePath(typeName, name)].Unreadable? ==>
              w.spectrum.None?
    ensures ProfilePath(typeName, name) in store && store[ProfilePath(typeName, name)].Intact? ==>
              w.spectrum == store[ProfilePath(typeName, name)].spectrum
  {
    var path := ProfilePath(typeName, name);
    if path in store then
      match store[path]
      case Intact(spectrum) => Word(name, spectrum)
      case Unreadable => Word(name, None)
    else Word(name, None)
  }

  /**
   * `SaveProfile(details)`: the word is written under the key built from its
   * current label. `written` is false when opening or writing the file throws;
   * the failure is logged, and the model keeps the store unchanged. Any file
   * that `FileMode.OpenOrCreate` created or partly overwrote before the throw
   * is not represented.
   */
  function SaveWord(store: Store, typeName: string, w: Word, written: bool): (r: Store)
    ensures !written ==> r == store
    ensures written ==> r.Keys == store.Keys + {ProfilePath(typeName, w.name)}
    ensures written ==> r[ProfilePath(typeName, w.name)] == Intact(w.spectrum)
    ensures forall p :: p in store && p != ProfilePath(typeName, w.name) ==> p in r && r[p] == store[p]
  {
    if written then store[ProfilePath(typeName, w.name) := Intact(w.spectrum)] else store
  }

  /** Save and load agree on the key: loading a word just saved gives it back unchanged. */
  lemma SaveLoadRoundTrip(store: Store, typeName: string, w: Word)
    ensures LoadWord(SaveWord(store, typeName, w, true), typeName, w.name) == w
  {
  }

  /** Saving one word leaves what every other label loads unchanged. */
  lemma SaveIsolated(store: Store, typeName: string, w: Word, written: bool, other: string)
    requires other != w.name
    ensures LoadWord(SaveWord(store, typeName, w, written), typeName, other) == LoadWord(store, typeName, other)
  {
    if ProfilePath(typeName, other) == ProfilePath(typeName, w.name) {
      ProfilePathInjective(typeName, other, w.name);
    }
  }

  /**
   * The loop of `Start`: one word per label, in order, each created with its
   * label and then loaded from its own file.
   */
  function BuildVocabulary(names: seq<string>, store: Store, typeName: string): (v: seq<Word>)
    ensures |v| == |names|
    ensures forall i :: 0 <= i < |names| ==> v[i].name == names[i]
    ensures forall i :: 0 <= i < |names| ==> v[i] == LoadWord(store, typeName, names[i])
  {
    if |names| == 0 then []
    else BuildVocabulary(names[..|names| - 1], store, typeName)
         + [LoadWord(store, typeName, names[|names| - 1])]
  }

  /** The labels of a vocabulary, in order. */
  function Names(v: seq<Word>): (r: seq<string>)
    ensures |r| == |v|
    ensures forall i :: 0 <= i < |v| ==> r[i] == v[i].name
  {
    seq(|v|, i requires 0 <= i < |v| => v[i].name)
  }
}

=== FILE: signal.dfy ===
/**
 * The pure vector operations of `SpectrumMicrophone`: noise-floor subtraction
 * in the wave and the spectrum domain, and amplitude normalization. Samples are
 * `real`s; a C# array that may be null is an `Option<seq<real>>`, and an
 * operation that rewrites its array in place returns the rewritten contents.
 */
module SignalConditioning {
  import opened Wrappers

  /** `Mathf.Abs`. */
  function Abs(x: real): real
  {
    if x < 0.0 then -x else x
  }

  /** `Mathf.Max`. */
  function Max(a: real, b: real): real
  {
    if a < b then b else a
  }

  /** `Mathf.Min`. */
  function Min(a: real, b: real): real
  {
    if a < b then a else b
  }

  predicate NonNegative(v: seq<real>)
  {
    forall i :: 0 <= i < |v| ==> v[i] >= 0.0
  }

  /** Floor subtraction of one bin: the magnitude of `x` reduced by that of `n`, never below zero. */
  function FloorSub(x: real, n: real): real
  {
    Max(0.0, Abs(x) - Abs(n))
  }

  /** Reference definition: floor subtraction applied bin by bin to equal-length vectors. */
  function Subtracted(noise: seq<real>, v: seq<real>): seq<real>
    requires |noise| == |v|
  {
    seq(|v|, i requires 0 <= i < |v| => FloorSub(v[i], noise[i]))
  }

  predicate AllZero(v: seq<real>)
  {
    forall i :: 0 <= i < |v| ==> v[i] == 0.0
  }

  /** A freshly allocated `float[n]`. */
  function Zeros(n: nat): (r: seq<real>)
    ensures |r| == n && AllZero(r)
  {
    seq(n, _ => 0.0)
  }

  // ---------------------------------------------------------------------------
  // RemoveSpectrumNoise
  // ---------------------------------------------------------------------------

  /**
   * `RemoveSpectrumNoise(noise, spectrum)`: a missing array or a length
   * mismatch leaves the spectrum as it is; otherwise every bin becomes
   * `max(0, |spectrum[i]| - |noise[i]|)`.
   */
  method RemoveSpectrumNoise(noise: Option<seq<real>>, spectrum: Option<seq<real>>) returns (r: Option<seq<real>>)
    ensures noise.None? || spectrum.None? || |noise.value| != |spectrum.value| ==> r == spectrum
    ensures noise.Some? && spectrum.Some? && |noise.value| == |spectrum.value| ==>
              && r.Some?
              && |r.value| == |spectrum.value|
              && NonNegative(r.value)
              && (forall i :: 0 <= i < |r.value| ==>
                    r.value[i] == Max(0.0, Abs(spectrum.value[i]) - Abs(noise.value[i])))
  {
    if noise.None? {
      return spectrum;
    }
    if spectrum.None? {
      return spectrum;
    }
    var n := noise.value;
    var s := spectrum.value;
    if |n| == |s| {
      var out := s;
      var index := 0;
      while index < |n|
        invariant 0 <= index <= |n| && |out| == |s|
        invariant forall k :: 0 <= k < index ==> out[k] == FloorSub(s[k], n[k])
      {
        out := out[index := FloorSub(s[index], n[index])];
        index := index + 1;
      }
      return Some(out);
    }
    return spectrum;
  }

  /** Subtracting an all-zero noise profile leaves each bin at its magnitude. */
  lemma ZeroNoiseGivesMagnitude(v: seq<real>)
    ensures |Subtracted(Zeros(|v|), v)| == |v|
    ensures forall i :: 0 <= i < |v| ==> Subtracted(Zeros(|v|), v)[i] == Abs(v[i])
  {
  }

  /** On a spectrum that is already non-negative, an all-zero noise profile changes nothing. */
  lemma {:induction false} ZeroNoiseIsIdentity(v: seq<real>)
    requires NonNegative(v)
    ensures Subtracted(Zeros(|v|), v) == v
  {
    var r := Subtracted(Zeros(|v|), v);
    forall i | 0 <= i < |v|
      ensures r[i] == v[i]
    {
      assert v[i] >= 0.0;
    }
  }

  /** Bin-wise sum of the magnitudes of two noise profiles. */
  function CombinedNoise(n1: seq<real>, n2: seq<real>): (r: seq<real>)
    requires |n1| == |n2|
    ensures |r| == |n1|
  {
    seq(|n1|, i requires 0 <= i < |n1| => Abs(n1[i]) + Abs(n2[i]))
  }

  /**
   * Two successive subtractions remove as much as one subtraction of the
   * combined noise magnitudes: the clamp at zero in the first pass loses nothing.
   */
  lemma {:induction false} SubtractionComposes(n1: seq<real>, n2: seq<real>, v: seq<real>)
    requires |n1| == |v| && |n2| == |v|
    ensures Subtracted(n2, Subtracted(n1, v)) == Subtracted(CombinedNoise(n1, n2), v)
  {
    var lhs := Subtracted(n2, Subtracted(n1, v));
    var rhs := Subtracted(CombinedNoise(n1, n2), v);
    forall i | 0 <= i < |v|
      ensures lhs[i] == rhs[i]
    {
      var once := FloorSub(v[i], n1[i]);
      assert once >= 0.0;
      assert Abs(once) == once;
      assert Abs(CombinedNoise(n1, n2)[i]) == Abs(n1[i]) + Abs(n2[i]);
    }
  }

  // ---------------------------------------------------------------------------
  // RemoveWaveNoise
  // ---------------------------------------------------------------------------

  /**
   * One sample of `RemoveWaveNoise` with the branch structure of the source:
   * both operands are replaced by their magnitudes first, and only then is the
   * sign of each examined.
   */
  function DenoiseSample(sample: real, noise: real): real
  {
    var noiseVal := Abs(noise);
    var sampleVal := Abs(sample);
    if sampleVal < 0.0 then
      if noiseVal < 0.0 then Min(0.0, sampleVal - noiseVal) else Min(0.0, sampleVal + noiseVal)
    else
      if noiseVal < 0.0 then Max(0.0, sampleVal + noiseVal) else Max(0.0, sampleVal - noiseVal)
  }

  /**
   * The sign tests in `DenoiseSample` can never succeed: every sample is
   * reduced to the same clamped magnitude difference that the spectrum-domain
   * operation computes, and so is never negative.
   */
  lemma SignBranchesAreDead(sample: real, noise: real)
    ensures DenoiseSample(sample, noise) == FloorSub(sample, noise)
    ensures DenoiseSample(sample, noise) >= 0.0
  {
  }

  /**
   * `RemoveWaveNoise(noise, sample)`, as written: a missing noise profile or a
   * length mismatch leaves the sample alone; otherwise each sample becomes
   * `max(0, |s| - |n|)`, the sign of the wave being lost.
   */
  method RemoveWaveNoise(noise: Option<seq<real>>, sample: seq<real>) returns (r: seq<real>)
    ensures noise.None? || |noise.value| != |sample| ==> r == sample
    ensures noise.Some? && |noise.value| == |sample| ==>
              r == Subtracted(noise.value, sample) && NonNegative(r)
  {
    if noise.Some? && |noise.value| == |sample| {
      var n := noise.value;
      var size := |n|;
      r := sample;
      var index := 0;
      while index < size
        invariant 0 <= index <= size && |r| == size
        invariant forall k :: 0 <= k < index ==> r[k] == FloorSub(sample[k], n[k])
      {
        SignBranchesAreDead(sample[index], n[index]);
        r := r[index := DenoiseSample(sample[index], n[index])];
        index := index + 1;
      }
    } else {
      r := sample;
    }
  }

  /**
   * The sign-preserving floor subtraction the branches of `RemoveWaveNoise`
   * were evidently written for: a negative sample moves up toward zero, a
   * non-negative one down toward zero, each by the noise magnitude.
   */
  function DenoiseSampleSigned(sample: real, noise: real): real
  {
    if sample < 0.0 then Min(0.0, sample + Abs(noise)) else Max(0.0, sample - Abs(noise))
  }

  /**
   * The corrected wave-noise removal: the same guard as the source, and each
   * sample keeps its sign while its magnitude is the one the written code
   * produces.
   */
  function RemoveWaveNoiseSigned(noise: Option<seq<real>>, sample: seq<real>): (r: seq<real>)
    ensures |r| == |sample|
    ensures noise.None? || |noise.value| != |sample| ==> r == sample
    ensures noise.Some? && |noise.value| == |sample| ==>
              forall i :: 0 <= i < |r| ==>
                && Abs(r[i]) == FloorSub(sample[i], noise.value[i])
                && (sample[i] < 0.0 ==> r[i] <= 0.0)
                && (sample[i] >= 0.0 ==> r[i] >= 0.0)
  {
    if noise.Some? && |noise.value| == |sample| then
      seq(|sample|, i requires 0 <= i < |sample| => DenoiseSampleSigned(sample[i], noise.value[i]))
    else
      sample
  }

  /** The corrected operation differs from the written one only in sign: magnitudes agree bin by bin. */
  lemma {:induction false} SignedAgreesInMagnitude(noise: seq<real>, sample: seq<real>)
    requires |noise| == |sample|
    ensures forall i :: 0 <= i < |sample| ==>
              Abs(RemoveWaveNoiseSigned(Some(noise), sample)[i]) == Subtracted(noise, sample)[i]
  {
  }

  /**
   * A concrete input on which the written and the intended wave-noise removal
   * part: the sample -0.5 with noise 0.1 comes out as +0.4 where -0.4 was meant.
   */
  lemma WaveNoiseLosesSign()
    ensures Subtracted([0.1], [-0.5]) == [0.4]
    ensures RemoveWaveNoiseSigned(Some([0.1]), [-0.5]) == [-0.4]
  {
    assert Subtracted([0.1], [-0.5])[0] == 0.4;
    assert RemoveWaveNoiseSigned(Some([0.1]), [-0.5])[0] == -0.4;
  }

  // ---------------------------------------------------------------------------
  // NormalizeWave
  // ---------------------------------------------------------------------------

  /** The running `max` of the first loop of `NormalizeWave`: the largest positive sample, or 0. */
  function PosPeak(s: seq<real>): real
  {
    if |s| == 0 then 0.0
    else
      var m := PosPeak(s[..|s| - 1]);
      var v := s[|s| - 1];
      if v > 0.0 && v > m then v else m
  }

  /** The running `min` of the first loop: the largest magnitude among non-positive samples, or 0. */
  function NegPeak(s: seq<real>): real
  {
    if |s| == 0 then 0.0
    else
      var m := NegPeak(s[..|s| - 1]);
      var v := s[|s| - 1];
      if v > 0.0 then m else if -v > m then -v else m
  }

  /** `PosPeak` bounds every positive sample and, when positive, is attained. */
  lemma {:induction false} PosPeakIsMaximum(s: seq<real>)
    ensures PosPeak(s) >= 0.0
    ensures forall i :: 0 <= i < |s| && s[i] > 0.0 ==> s[i] <= PosPeak(s)
    ensures PosPeak(s) > 0.0 ==> exists i :: 0 <= i < |s| && s[i] == PosPeak(s)
  {
    if |s| > 0 {
      var init := s[..|s| - 1];
      PosPeakIsMaximum(init);
      assert forall i :: 0 <= i < |init| ==> s[i] == init[i];
      if PosPeak(s) > 0.0 && PosPeak(s) == PosPeak(init) {
        var j :| 0 <= j < |init| && init[j] == PosPeak(init);
        assert s[j] == PosPeak(s);
      }
    }
  }

  /** `NegPeak` bounds the magnitude of every non-positive sample and, when positive, is attained. */
  lemma {:induction false} NegPeakIsMaximum(s: seq<real>)
    ensures NegPeak(s) >= 0.0
    ensures forall i :: 0 <= i < |s| && s[i] <= 0.0 ==> -s[i] <= NegPeak(s)
    ensures NegPeak(s) > 0.0 ==> exists i :: 0 <= i < |s| && s[i] == -NegPeak(s)
  {
    if |s| > 0 {
      var init := s[..|s| - 1];
      NegPeakIsMaximum(init);
      assert forall i :: 0 <= i < |init| ==> s[i] == init[i];
      if NegPeak(s) > 0.0 && NegPeak(s) == NegPeak(init) {
        var j :| 0 <= j < |init| && init[j] == -NegPeak(init);
        assert s[j] == -NegPeak(s);
      }
    }
  }

  /**
   * The second loop of `NormalizeWave` on one sample, as written: a positive
   * sample is divided by `max`, and a non-positive one is divided by `max` as
   * well, although the guard tests `min`.
   */
  function ScaleAsWritten(v: real, max: real, min: real): real
    requires min != 0.0 ==> max != 0.0
  {
    if v > 0.0 then
      if max != 0.0 then v / max else v
    else
      if min != 0.0 then v / max else v
  }

  /** A positive sample divided by a peak at least as large lands in (0, 1]. */
  lemma UnitScale(v: real, peak: real)
    requires 0.0 < v <= peak
    ensures 0.0 < v / peak <= 1.0
  {
  }

  /** Dividing a negated value negates the quotient. */
  lemma NegatedQuotient(v: real, m: real)
    requires m != 0.0
    ensures v / m == -((-v) / m)
  {
    assert (v / m) * m == v;
    assert ((-v) / m) * m == -v;
  }

  lemma SelfDivision(x: real)
    requires x != 0.0
    ensures x / x == 1.0
  {
  }

  /** What the written scaling does to a whole wave, given the peaks of its two lobes. */
  lemma AsWrittenScaling(s: seq<real>, out: seq<real>)
    requires NegPeak(s) != 0.0 ==> PosPeak(s) != 0.0
    requires |out| == |s|
    requires forall k :: 0 <= k < |s| ==> out[k] == ScaleAsWritten(s[k], PosPeak(s), NegPeak(s))
    ensures forall i :: 0 <= i < |s| && s[i] > 0.0 ==> 0.0 < out[i] <= 1.0
    ensures PosPeak(s) > 0.0 ==>
              && (exists i :: 0 <= i < |s| && out[i] == 1.0)
              && (forall i :: 0 <= i < |s| && s[i] <= 0.0 ==> out[i] == s[i] / PosPeak(s))
    ensures PosPeak(s) == 0.0 ==> out == s
  {
    PosPeakIsMaximum(s);
    NegPeakIsMaximum(s);
    var max := PosPeak(s);
    var min := NegPeak(s);
    forall i | 0 <= i < |s| && s[i] > 0.0
      ensures 0.0 < out[i] <= 1.0
    {
      UnitScale(s[i], max);
    }
    if max > 0.0 {
      var j :| 0 <= j < |s| && s[j] == max;
      SelfDivision(max);
      assert out[j] == 1.0;
      forall i | 0 <= i < |s| && s[i] <= 0.0
        ensures out[i] == s[i] / max
      {
        if min == 0.0 {
          assert -s[i] <= min;
        }
      }
    } else {
      forall i | 0 <= i < |s|
        ensures out[i] == s[i]
      {
        if s[i] <= 0.0 {
          assert -s[i] <= min;
        }
      }
    }
  }

  /**
   * `NormalizeWave(samples)`, as written. A null array is left alone. The
   * positive lobe is scaled into (0, 1] with its peak at exactly 1, and every
   * non-positive sample is divided by that same positive peak. When there is a
   * negative lobe but no positive sample the source divides by zero; that input
   * is excluded.
   */
  method NormalizeWave(samples: Option<seq<real>>) returns (r: Option<seq<real>>)
    requires samples.Some? && NegPeak(samples.value) != 0.0 ==> PosPeak(samples.value) != 0.0
    ensures samples.None? ==> r.None?
    ensures samples.Some? ==> r.Some? && |r.value| == |samples.value|
    ensures samples.Some? ==> forall i :: 0 <= i < |samples.value| ==>
              r.value[i] == ScaleAsWritten(samples.value[i], PosPeak(samples.value), NegPeak(samples.value))
    ensures samples.Some? ==> forall i :: 0 <= i < |samples.value| && samples.value[i] > 0.0 ==>
              0.0 < r.value[i] <= 1.0
    ensures samples.Some? && PosPeak(samples.value) > 0.0 ==>
              && (exists i :: 0 <= i < |samples.value| && r.value[i] == 1.0)
              && (forall i :: 0 <= i < |samples.value| && samples.value[i] <= 0.0 ==>
                    r.value[i] == samples.value[i] / PosPeak(samples.value))
    ensures samples.Some? && PosPeak(samples.value) == 0.0 ==> r == samples
  {
    if samples.None? {
      return None;
    }
    var s := samples.value;
    var min := 0.0;
    var max := 0.0;
    var size := |s|;
    var index := 0;
    while index < size
      invariant 0 <= index <= size
      invariant max == PosPeak(s[..index]) && min == NegPeak(s[..index])
    {
      assert s[..index + 1][..index] == s[..index];
      var val := s[index];
      if val > 0.0 {
        if val > max {
          max := val;
        }
      } else {
        val := -val;
        if val > min {
          min := val;
        }
      }
      index := index + 1;
    }
    assert s[..size] == s;
    PosPeakIsMaximum(s);
    NegPeakIsMaximum(s);

    var out := s;
    index := 0;
    while index < size
      invariant 0 <= index <= size && |out| == size
      invariant forall k :: 0 <= k < index ==> out[k] == ScaleAsWritten(s[k], max, min)
    {
      out := out[index := ScaleAsWritten(s[index], max, min)];
      index := index + 1;
    }
    AsWrittenScaling(s, out);
    return Some(out);
  }

  /** One sample of the symmetric normalization: each lobe is divided by its own peak. */
  function ScaleSymmetric(v: real, max: real, min: real): real
  {
    if v > 0.0 then
      if max != 0.0 then v / max else v
    else
      if min != 0.0 then v / min else v
  }

  /**
   * The normalization the source evidently intended: the negative lobe is
   * divided by its own peak magnitude. It needs no precondition, keeps every
   * sample in [-1, 1] with its sign, scales each lobe by its own peak and
   * sends each lobe's peak to exactly 1 or -1.
   */
  function NormalizeWaveSymmetric(s: seq<real>): (r: seq<real>)
    ensures |r| == |s|
    ensures forall i :: 0 <= i < |s| ==> -1.0 <= r[i] <= 1.0
    ensures forall i :: 0 <= i < |s| ==> (s[i] > 0.0 <==> r[i] > 0.0)
    ensures forall i :: 0 <= i < |s| ==> (s[i] < 0.0 <==> r[i] < 0.0)
    ensures forall i :: 0 <= i < |s| && s[i] > 0.0 ==> PosPeak(s) > 0.0 && r[i] == s[i] / PosPeak(s)
    ensures forall i :: 0 <= i < |s| && s[i] < 0.0 ==> NegPeak(s) > 0.0 && r[i] == s[i] / NegPeak(s)
    ensures forall i :: 0 <= i < |s| && s[i] == 0.0 ==> r[i] == 0.0
    ensures PosPeak(s) > 0.0 ==> exists i :: 0 <= i < |s| && r[i] == 1.0
    ensures NegPeak(s) > 0.0 ==> exists i :: 0 <= i < |s| && r[i] == -1.0
  {
    var max := PosPeak(s);
    var min := NegPeak(s);
    var r := seq(|s|, i requires 0 <= i < |s| => ScaleSymmetric(s[i], max, min));
    PosPeakIsMaximum(s);
    NegPeakIsMaximum(s);
    SymmetricScaling(s, r, max, min);
    r
  }

  /** One sample scaled by the peak of its own lobe stays in [-1, 1] and keeps its sign. */
  lemma SymmetricSampleInRange(v: real, max: real, min: real)
    requires max >= 0.0 && min >= 0.0
    requires v > 0.0 ==> v <= max
    requires v <= 0.0 ==> -v <= min
    ensures -1.0 <= ScaleSymmetric(v, max, min) <= 1.0
    ensures v > 0.0 <==> ScaleSymmetric(v, max, min) > 0.0
    ensures v < 0.0 <==> ScaleSymmetric(v, max, min) < 0.0
    ensures v > 0.0 ==> max > 0.0 && ScaleSymmetric(v, max, min) == v / max
    ensures v < 0.0 ==> min > 0.0 && ScaleSymmetric(v, max, min) == v / min
    ensures v == 0.0 ==> ScaleSymmetric(v, max, min) == 0.0
  {
    if v > 0.0 {
      UnitScale(v, max);
    } else if v < 0.0 {
      UnitScale(-v, min);
      NegatedQuotient(v, min);
    }
  }

  /** What the symmetric scaling does to a whole wave, given the peaks `max` and `min` of its two lobes. */
  lemma SymmetricScaling(s: seq<real>, r: seq<real>, max: real, min: real)
    requires max >= 0.0 && min >= 0.0
    requires forall i :: 0 <= i < |s| && s[i] > 0.0 ==> s[i] <= max
    requires forall i :: 0 <= i < |s| && s[i] <= 0.0 ==> -s[i] <= min
    requires |r| == |s|
    requires forall k :: 0 <= k < |s| ==> r[k] == ScaleSymmetric(s[k], max, min)
    ensures forall i :: 0 <= i < |s| ==> -1.0 <= r[i] <= 1.0
    ensures forall i :: 0 <= i < |s| ==> (s[i] > 0.0 <==> r[i] > 0.0)
    ensures forall i :: 0 <= i < |s| ==> (s[i] < 0.0 <==> r[i] < 0.0)
    ensures forall i :: 0 <= i < |s| && s[i] > 0.0 ==> max > 0.0 && r[i] == s[i] / max
    ensures forall i :: 0 <= i < |s| && s[i] < 0.0 ==> min > 0.0 && r[i] == s[i] / min
    ensures forall i :: 0 <= i < |s| && s[i] == 0.0 ==> r[i] == 0.0
    ensures forall i :: 0 <= i < |s| && max > 0.0 && s[i] == max ==> r[i] == 1.0
    ensures forall i :: 0 <= i < |s| && min > 0.0 && s[i] == -min ==> r[i] == -1.0
  {
    forall i | 0 <= i < |s|
      ensures -1.0 <= r[i] <= 1.0 && (s[i] > 0.0 <==> r[i] > 0.0) && (s[i] < 0.0 <==> r[i] < 0.0)
      ensures s[i] > 0.0 ==> max > 0.0 && r[i] == s[i] / max
      ensures s[i] < 0.0 ==> min > 0.0 && r[i] == s[i] / min
      ensures s[i] == 0.0 ==> r[i] == 0.0
    {
      SymmetricSampleInRange(s[i], max, min);
    }
    if max > 0.0 {
      SelfDivision(max);
    }
    if min > 0.0 {
      SelfDivision(min);
      NegatedQuotient(min, min);
    }
  }

  /**
   * A concrete input on which the written normalization leaves the unit range:
   * for [0.5, -1.0] the negative sample is divided by the positive peak 0.5 and
   * becomes -2.0, where the symmetric version gives -1.0.
   */
  lemma NegativeLobeLeavesUnitRange()
    ensures PosPeak([0.5, -1.0]) == 0.5 && NegPeak([0.5, -1.0]) == 1.0
    ensures ScaleAsWritten(-1.0, 0.5, 1.0) == -2.0
    ensures NormalizeWaveSymmetric([0.5, -1.0])[1] == -1.0
  {
    var s := [0.5, -1.0];
    assert s[..1] == [0.5];
    assert [0.5][..0] == [];
  }
}

=== FILE: wrappers.dfy ===
/** Optional values: the model's stand-in for a C# reference that may be null. */
module Wrappers {

  datatype Option<+T> = None | Some(value: T)
}
